=== FILE: README.md ===
# gh-kusa-breaker, modelled in Dafny

gh-kusa-breaker turns a GitHub contribution calendar ("kusa", the green squares) into a
breakout game in the terminal. This project models the deterministic core of that program
and proves properties of the model:

- **Brick-grid builder** (`strength.dfy`, module `Strength`).
  - Compresses N weeks x 7 weekdays into 7 rows of at most `maxCols` columns.
  - Each cell keeps the per-weekday maximum count of the weeks grouped into it.
  - Each cell gets hit points 0..4 from `ceil(4*count/maxCount)`.
  - `BuildBrickGrid` is a method with the source's loops. It is proved against `IsBrickGrid`, a description that determines the grid uniquely.
- **Simulation engine** (`engine.dfy`, `physics.dfy`, `bricks.dfy`; modules `Engine`, `Physics`, `BrickField`).
  - `State` is a class whose fields `Step`, `ResetBall` and the constructor (`NewState`) update in place.
  - A step's pieces are pure functions on values: paddle movement; walls, ceiling and paddle bounce; the brick under the ball; wearing a brick down; the brick bounce.
  - Every method is proved against these functions, and the class invariant `Valid` is preserved.
- **Terminal UI model** (`model.dfy`, `pacing.dfy`, `canvas.dfy`; modules `Tui`, `Pacing`, `Canvas`).
  - `Model` is a class with handlers for window-size messages, ticks and keys, plus `rebuild`, `resetGame`, `updateIntro` and `frameDuration`.
  - Ticks drive the fixed-timestep scheduler: clamp the elapsed time, bank game time, then drain at most 10 steps of 1/120 s each.
  - The intro reveals brick columns one by one.
  - The overlay canvas `CanvasBuf` is a class over an `array<string>` that is written in place.
- **Error classification** (`errors.dfy`, module `Errors`).
  - Covers the `Error()` texts of the two typed errors, `IsAuthError`, `IsUserNotFound` and `isGraphQLUserNotFound`.
  - These are defined over an error datatype whose `Unwrap` chain is explicit.
- **Request validation** (`contrib.dfy`, module `Contrib`).
  - Covers `validateWeeks`, `validateRange`, and the part of the four `Fetch*` entry points that runs before any request is made.
- **Go helpers** (`gomath.dfy`, module `GoMath`): truncating integer division, ceiling division and `math.Mod`. `wrappers.dfy` holds `Option` and `Result`.

Modelling conventions:

- `float64` values are Dafny `real`s: exact arithmetic, no rounding.
- Each value the engine takes from its seeded generator (`rng.Float64()`) becomes a parameter `draw` in [0, 1).
- Times in the validators are whole seconds since the Unix epoch. Go's zero `time.Time` is the constant `ZeroTime`.
- Wall-clock tick times are seconds as reals. Go's zero time, which marks "no tick yet", is `None`.
- `time.Now()` in the weeks-mode entry points is a parameter `now`.
- The `seed` is a `uint64`; its increment in `resetGame` wraps at 2^64.
- `Width`, `Height`, `PaddleW`, `PaddleY`, `BrickMax` and `BricksTotal` are set by `NewState` and never written again, so they are `const` fields of `Engine.State`.
- `Engine.State.GameOf()` reads everything a step may change as a `Game` value and `ArenaOf()` the fixed rest as an `Arena`. `Engine.StepFn` is one step on those values and `Engine.StepN` n steps; the class's `Step` and the tick's drain are proved against them.
- `Engine.State.Trace` is a ghost log of the step length and move handed to each call of `Step`. It lets the tick contracts say how many steps ran and that each was a 1/120 s step with the same latched move.
- The six intro fields of the Go model are grouped into one record, `Pacing.Intro`.

Two consequences of the code that are easy to miss:

- The serve velocity `(draw*2-1)*10` lies in [-10, 10): a draw of 0 gives -10, and no draw below 1 reaches 10.
- `Cleared` and `GameOver` can both become true in the same step: the last brick is struck and the ball is then below the field. Nothing in `Step` excludes this, and the model does not claim the flags are exclusive. Only later steps are frozen.

## Model

| member | source | states |
|---|---|---|
| GoMath.Quo | internal/tui/model.go:196 | Go's integer division truncates toward zero: the remainder a - b*q takes the dividend's sign and is smaller than b in size (in [0, b) for a >= 0, in (-b, 0] for a < 0). |
| GoMath.CeilDiv | internal/mapping/strength.go:32 | The ceiling q of a/b for b > 0, characterised by b*(q-1) < a <= b*q. |
| GoMath.FMod | internal/tui/model.go:134 | math.Mod of a non-negative value by a positive one lies in [0, y), does not exceed x, and differs from x by a whole multiple of y. |
| Contrib.Message | internal/github/contrib.go:32-63 | Every validation error carries a non-empty message, the text the Go code returns. |
| Contrib.ValidateWeeks | internal/github/contrib.go:32-42 | Accepts exactly 1..52 weeks; the error says "must be > 0" exactly for weeks <= 0 and "between 1 and 52" exactly for weeks > 52. |
| Contrib.ValidateRange | internal/github/contrib.go:44-63 | Accepts exactly the ranges with both ends set, from <= to, both on or after 2008-04-10 and a span of at most 366 days. Each error is returned exactly when its check is the first, in source order, to fail. |
| Contrib.ValidateRangeBoundaries | internal/github/contrib.go:44-63 | The package test's ranges: launch to launch+1 day is accepted; from one day before launch is rejected as before launch; to one second before launch is rejected as reversed, since that check comes first. Beyond the test: a span of exactly 366 days is accepted and one second more is too long. |
| Contrib.WeeksRange | internal/github/contrib.go:319-320 | The weeks-mode range ends at now and spans exactly 7*weeks days. |
| Contrib.FetchViewerContributionCalendar | internal/github/contrib.go:314-326 | Fails exactly when validateWeeks fails, with its error; otherwise asks for the viewer's calendar over the last 7*weeks days ending now. |
| Contrib.FetchUserContributionCalendar | internal/github/contrib.go:332-347 | An empty login is rejected before anything else. Otherwise it fails exactly when validateWeeks fails, with its error, and else asks for that user's calendar over the last 7*weeks days. |
| Contrib.FetchViewerContributionCalendarRange | internal/github/contrib.go:351-359 | Succeeds exactly for ranges validateRange accepts, asking for that exact range. A failure carries validateRange's error. |
| Contrib.FetchUserContributionCalendarRange | internal/github/contrib.go:363-374 | An empty login is rejected first. Otherwise it succeeds exactly for accepted ranges, asking for that user and that range; a failure carries validateRange's error. |
| Contrib.WeeksRequestPassesRangeCheck | internal/github/contrib.go:319-320 | Once now is 52 weeks past launch, every weeks-mode request covers a range that validateRange also accepts. |
| Errors.ContainsIff | internal/github/errors.go:50-71 | The substring test used by the classifiers holds exactly when the phrase occurs at some index of the message. |
| Errors.LowerChar | internal/github/errors.go:47 | A character's lower case is ASCII exactly when the character is ASCII, U+0130 or U+212A; it is never an upper-case ASCII letter; a lower-case ASCII result is the character itself, its letter shifted by 32, or one of those two. |
| Errors.ToLower | internal/github/errors.go:47 | Lower-casing keeps the length, maps each character by itself and leaves no upper-case ASCII letter. |
| Errors.LowerTwice | internal/github/errors.go:47 | Lower-casing is idempotent. |
| Errors.ContainsSeesOnlyAscii | internal/github/errors.go:50-71 | An ASCII phrase occurs in one of two texts that agree on every ASCII position exactly when it occurs in the other. |
| Errors.AuthErrorText | internal/github/errors.go:16-27 | A nil receiver gives "authentication error"; otherwise the own message if non-empty, else the cause's text, else "authentication error". The text is empty only when the message is empty and a cause with an empty text exists. |
| Errors.UserNotFoundText | internal/github/errors.go:86-94 | Never empty; "user not found" for a nil receiver or an empty login; otherwise the text contains the login. |
| Errors.Text | internal/github/errors.go:47 | The text of an error, as each kind's Error() gives it: a %w wrapping contains the wrapped error's text, and a UserNotFoundError's text is never empty. |
| Errors.Unwrap | internal/github/errors.go:29 | Unwrapping yields a strictly smaller error, so every unwrap chain is finite. |
| Errors.Chain | internal/github/errors.go:46 | The chain walked by IsAuthError is non-empty and starts at the error itself. |
| Errors.IsAuthError | internal/github/errors.go:35-76 | nil is not an auth error; an AuthError, or an error whose own lower-cased text has an auth phrase, is one. The full chain characterisation is Errors.IsAuthErrorByChain. |
| Errors.IsUserNotFound | internal/github/errors.go:98-101 | nil is not a user-not-found error and a UserNotFoundError is one; through wrappings see Errors.UserNotFoundSurvivesWrapping. |
| Errors.IsGraphQLUserNotFound | internal/github/errors.go:103-112 | Only a non-nil error qualifies, and every text containing "Could not resolve to a User" does; that this phrase alone decides is Errors.GraphQLUserNotFoundIsShortPhrase. |
| Errors.IsAuthErrorByChain | internal/github/errors.go:35-76 | IsAuthError of a non-nil error holds if and only if some link of its unwrap chain is an AuthError or has a lower-cased text matching one of the auth phrases. |
| Errors.AuthErrorSurvivesWrapping | internal/github/errors.go:35-43 | IsAuthError(nil) is false, and an AuthError below any number of %w wrappings is classified as an auth error (errors.As finds it). |
| Errors.UserNotFoundSurvivesWrapping | internal/github/errors.go:98-101 | IsUserNotFound(nil) is false, and a UserNotFoundError is recognised directly and below any number of wrappings. |
| Errors.GraphQLUserNotFoundIsShortPhrase | internal/github/errors.go:103-112 | isGraphQLUserNotFound holds exactly for a non-nil error whose text contains "Could not resolve to a User"; the longer alternative adds nothing. |
| Errors.AuthPhraseSeesOnlyAscii | internal/github/errors.go:47-71 | The phrase verdict is the same for two texts that differ only in non-ASCII characters, so the non-ASCII case mappings the model does not perform cannot change it. |
| Errors.AuthVerdictIgnoresCase | internal/github/errors.go:35-76 | A plain error whose message differs from another's only in letter case gets the same IsAuthError verdict, and lowering the message first changes nothing. |
| Strength.HPFromCount | internal/mapping/strength.go:25-34 | HP is 0..4; 0 exactly for count <= 0; 1 when there is no positive maximum; for 0 < count <= maxCount it is ceil(4*count/maxCount); 4 once count reaches the maximum. |
| Strength.HPMonotone | internal/mapping/strength.go:32 | For a fixed maximum, HP never decreases as the count grows. |
| Strength.HPExamples | internal/mapping/strength.go:25-34 | HP of 5 of 5 is 4, of 1 of 10 is 1, of 0 is 0, of 3 of 10 is 2. |
| Strength.ColumnInRange | internal/mapping/strength.go:62 | Week wi of n lands in a column in [0, cols). |
| Strength.ColumnMonotone | internal/mapping/strength.go:62 | Later weeks never land in earlier columns. |
| Strength.ColumnSurjective | internal/mapping/strength.go:50-62 | With no more columns than weeks, every column receives some week. |
| Strength.FoldDaysIsMax | internal/mapping/strength.go:63-71 | Folding a week's days into a cell gives at least the start value, at least every count of that weekday, and equals the start or one of those counts. |
| Strength.CellCountIsMax | internal/mapping/strength.go:61-72 | A cell's count is the maximum of 0 and the counts of all days with that weekday in weeks mapped to that column; weekdays outside 0..6 never contribute. |
| Strength.BrickGridUnique | internal/mapping/strength.go:41-95 | At most one grid meets the builder's description, so the description determines its result. |
| Strength.BrickGridSize | internal/mapping/strength.go:43-58 | 7 rows and 7 row slices; an empty calendar gives 0 columns and maxCount 0; otherwise 1 <= cols <= min(weeks, max(maxCols, 1)) and every column is fed by some week. |
| Strength.BrickGridCells | internal/mapping/strength.go:74-87 | Every cell's count lies in [0, maxCount]; its HP lies in 0..4, is 0 exactly for count 0, and is 4 when the count is the positive maximum. |
| Strength.BrickGridHasStrongest | internal/mapping/strength.go:74-87 | A grid with a positive maximum count has a brick with 4 HP. |
| Strength.FoldWeeks | internal/mapping/strength.go:55-72 | The week loop leaves 7 rows of cols cells, each holding its cell's maximum count and HP 0. |
| Strength.FoldWeek | internal/mapping/strength.go:63-71 | Folding one week's days into its column advances every cell from its count over the first wi weeks to its count over the first wi+1. |
| Strength.MaxCountOf | internal/mapping/strength.go:74-81 | The scan returns a non-negative bound on all counts that is 0 or attained by some cell. |
| Strength.AssignHP | internal/mapping/strength.go:83-87 | The HP loop gives every cell HPFromCount(count, maxCount) and keeps every count. |
| Strength.BuildBrickGrid | internal/mapping/strength.go:41-95 | The result is the grid IsBrickGrid describes: 7 rows, min(weeks, max(maxCols, 1)) columns (0 for no weeks), per-cell maximum counts, the maximum count, and HP from count and maximum. |
| Physics.ServeVX | internal/game/engine.go:81-86 | The serve velocity is (draw*2-1)*10, replaced by 6 when it is 0: never 0, within [-10, 10). |
| Physics.PaddleWidth | internal/game/engine.go:77 | The paddle is max(6, fieldW/5) wide: at least both, and equal to one of them. |
| Physics.MovePaddle | internal/game/engine.go:133-141 | The paddle moves by move*70*dt; afterwards it ends inside the right wall, starts at or after 0 when it is no wider than the field, and an unclamped move is kept exactly. |
| Physics.Walls | internal/game/engine.go:147-154 | A ball outside [0, width-1] is put back on the wall with its horizontal speed unchanged in magnitude and pointing inwards; a ball inside is untouched. |
| Physics.Ceiling | internal/game/engine.go:156-160 | A ball above row TopWallY is put on it moving down with the same speed; otherwise unchanged. |
| Physics.Clamp30 | internal/game/engine.go:170-175 | The horizontal velocity after a paddle hit is clamped to [-30, 30], values inside unchanged. |
| Physics.HitOffset | internal/game/engine.go:167 | The hit offset is in [-1, 1] for a hit on the paddle, non-negative right of centre and non-positive left of it. |
| Physics.PaddleBounce | internal/game/engine.go:162-176 | Without a hit (moving down, within 0.2 of the paddle top, over the paddle) nothing changes. A hit sends the ball up with the same vertical speed, keeps vx within [-30, 30] and within the clamped +-12 deflection, on the side of the paddle struck. |
| Physics.DeflectionBounds | internal/game/engine.go:167-175 | A deflection of rel*12 with rel in [-1, 1] lies between the clamped -12 and +12 deflections, on the side of rel. |
| Physics.Advance | internal/game/engine.go:143-176 | After integration, walls, ceiling and paddle the ball is within [0, width-1], at or below the ceiling, with its vertical speed unchanged in magnitude and |vx| <= 30 kept. |
| Physics.BrickBounce | internal/game/engine.go:200-225 | Entering a brick from the left, right, top or bottom (in that priority) puts the ball just outside that side and reflects the matching velocity component; otherwise only vy flips. Magnitudes never change and only one axis changes. |
| BrickField.HPMatrix | internal/game/engine.go:62-70 | The HP matrix has the grid's rows and columns, each entry the HP of its cell. |
| BrickField.CellOf | internal/game/engine.go:179-183 | The cell under the ball: the row r with r + topOffset <= y < r + topOffset + 1, i.e. floor(y) minus the top offset; for x >= 0 the column whose brick span holds floor(x). |
| BrickField.Worn | internal/game/engine.go:193-196 | Wearing the struck brick keeps the shape and lowers the live count by one exactly when the brick had 1 HP left. |
| BrickField.WornCells | internal/game/engine.go:193 | Wearing changes exactly the struck cell, by one HP. |
| BrickField.WornKeepsWornDown | internal/game/engine.go:187-193 | Striking a live brick keeps every brick at its initial HP or between 0 and below it. |
| BrickField.WornDownLiveCount | internal/game/engine.go:107-108 | Worn-down bricks never have more live cells than the initial ones. |
| BrickField.Collision | internal/game/engine.go:178-227 | The brick hit on a field: the cell under the ball, and if it holds a live brick, that brick worn, the score, counter and Cleared updated and the ball bounced off it. Its properties are stated by BrickField.CollisionFacts. |
| BrickField.CollisionFacts | internal/game/engine.go:178-227 | A collision keeps the grid shape; with no live brick under the ball nothing changes; a hit wears that brick, scores at least 10, removes at most one live brick, sets Cleared exactly when the last one went, and keeps the remaining count equal to the live count. |
| BrickField.CountedBounds | internal/game/engine.go:194-199 | In a consistent field 0 <= BricksRemaining <= BricksTotal, and a cleared field has none left. |
| Engine.StepFn | internal/game/engine.go:125-233 | One step on values: a finished game is left as it is; otherwise paddle move, ball advance and brick collision, GameOver when the ball ends below the field. The grid keeps its shape and the score never drops. |
| Engine.StepN | internal/game/engine.go:125-233 | n steps of the same length and move keep a game runnable (paddle width positive, grid shape kept). |
| Engine.StepCounted | internal/game/engine.go:185-199 | A step keeps the brick bookkeeping consistent: bricks worn down from their initial HP, both counters, Cleared. |
| Engine.StepNCounted | internal/game/engine.go:185-199 | Any number of steps keeps that bookkeeping consistent. |
| Engine.StepNScore | internal/game/engine.go:185-199 | Over any number of steps the score never drops. |
| Engine.StepNFinished | internal/game/engine.go:126-128 | A cleared or lost game stays exactly as it is however many steps follow. |
| Engine.CopyHP | internal/game/engine.go:62-75 | The copy loop produces the grid's HP matrix and counts its live cells. |
| Engine.CopyRow | internal/game/engine.go:66-74 | One row of the copy: the row's HP values and how many are above 0. |
| Engine.State.constructor | internal/game/engine.go:41-112 | NewState: Height = max(height, 10); Width = min(2*cols, max(width, 10)); Bricks and BrickMax are the grid's HP; both counters count its live cells; score 0; flags false; paddle max(6, Width/5) wide, centred, on row Height-2; ball above it served with ServeVX and vy = -18. The invariant Valid holds. |
| Engine.State.ResetBall | internal/game/engine.go:114-123 | Only the four ball fields change: centred above the paddle, served with ServeVX(draw) and vy = -18. |
| Engine.State.Strike | internal/game/engine.go:185-199 | The struck brick loses one HP, the score grows by 10*max(initial HP, 1), the remaining count drops when the brick reaches 0, and Cleared is set when that was the last one; Valid is kept. |
| Engine.State.Bounce | internal/game/engine.go:200-225 | The ball becomes BrickBounce of its previous position against the struck cell's edges. |
| Engine.State.Collide | internal/game/engine.go:178-227 | Bricks, score, remaining count, Cleared and ball become Collision of the old ones; Valid is kept. |
| Engine.State.Hit | internal/game/engine.go:185-225 | A hit on the live brick under the ball: striking it and bouncing the ball leave Collision of the old field; Valid is kept. |
| Engine.State.Move | internal/game/engine.go:133-176 | The paddle becomes MovePaddle of its old position and the ball Advance of the old ball against the moved paddle. |
| Engine.State.Step | internal/game/engine.go:125-233 | The step length and move are appended to Trace. Everything a step may change becomes StepFn of its old value (GameOf() == StepFn(old GameOf(), ArenaOf(), dt, move)), and nothing else is in its frame. A cleared or lost game is left exactly as it is; else the step is played as in Play. Valid is kept. |
| Engine.State.Play | internal/game/engine.go:133-233 | The paddle moves, the ball advances and collides (Collision of the advanced ball), and GameOver is set exactly when the ball ends below the field. Valid is kept. |
| Canvas.FlatIndex | internal/tui/model.go:773 | Cell (x, y) of a w x h grid lives at an index inside the buffer of w*h cells. |
| Canvas.FlatIndexInRange | internal/tui/model.go:773 | y*w + x is in [0, w*h) for every on-grid point. |
| Canvas.FlatIndexInjective | internal/tui/model.go:773 | Two on-grid points share a slot if and only if they are the same point. |
| Canvas.CanvasBuf.constructor | internal/tui/model.go:736-740 | The zero canvas: no dimensions, no cells. |
| Canvas.CanvasBuf.Reset | internal/tui/model.go:742-746 | Dimensions and cells are dropped. |
| Canvas.CanvasBuf.Resize | internal/tui/model.go:748-761 | A non-positive dimension resets; otherwise the canvas is nw x nh with nw*nh cells, keeping the buffer and its contents when the size is unchanged and giving fresh empty cells when it changes. |
| Canvas.CanvasBuf.Fill | internal/tui/model.go:763-767 | Every cell becomes the given string. |
| Canvas.CanvasBuf.Set | internal/tui/model.go:769-774 | An off-grid point changes nothing; an on-grid point writes exactly its slot y*w+x, and every other cell keeps its value. |
| Pacing.InitialSpeed | internal/tui/model.go:67-69 | A non-positive speed becomes 1, a positive one is kept; the result is positive. |
| Pacing.SpeedUp | internal/tui/model.go:148-152 | "+" adds 0.1 capped at 5 and keeps a positive speed positive. |
| Pacing.SlowDown | internal/tui/model.go:153-157 | "-" subtracts 0.1 floored at 0.25: never below 0.25, and never faster, except that a speed below 0.25 is raised to 0.25. |
| Pacing.TickDt | internal/tui/model.go:107-114 | The elapsed time is clamped to [0, 0.05]: negatives become 0, long gaps 0.05, others are kept. |
| Pacing.Bank | internal/tui/model.go:121 | Banking dt at a positive speed never lowers the budget. |
| Pacing.StepsDue | internal/tui/model.go:122-131 | A budget pays for k steps, 0 <= k <= 10: below 10 exactly the whole quanta it holds; 10 when it holds at least 10. |
| Pacing.MaxColsFor | internal/tui/model.go:195-196 | The column limit is at least 1 and (w-2)/2 for windows at least 4 wide. |
| Pacing.GameWidth | internal/tui/model.go:205-208 | The requested field width is w-2, at least 10. |
| Pacing.GameHeight | internal/tui/model.go:200-203 | The requested field height is h-4, at least 10. |
| Pacing.IntroStep | internal/tui/model.go:236-243 | Seconds per column are 1.1/cols clamped to [0.01, 0.08]. |
| Pacing.Repeat | internal/tui/model.go:127-129 | n steps handed the same step length and latched move receive n copies of that pair. |
| Pacing.IntroAdvanceMonotone | internal/tui/model.go:419-439 | An intro advanced by updateIntro for a non-negative dt never hides a column, never undoes done, is untouched once ended, and stays in shape, its bank included. |
| Pacing.ArmIntro | internal/tui/model.go:224-252 | After rebuild nothing is revealed or banked. The intro runs exactly when it has not run yet, the game has live bricks and the first row has columns; then it covers those columns at IntroStep's pace. With live bricks but no columns it is marked done. |
| Tui.BuiltGridFits | internal/tui/model.go:198-210 | The grid rebuild builds has the rows and columns NewState reads. |
| Tui.NoColumnsNoBricks | internal/tui/model.go:230-235 | A grid without columns has no live brick. |
| Tui.ArmIntroKeepsDone | internal/tui/model.go:230-251 | For a new game's bricks, rebuild never takes the no-columns branch: the done flag stays as it was. |
| Tui.Model.constructor | internal/tui/model.go:66-77 | NewModel: login, calendar and seed kept, speed InitialSpeed(speed), not ready, no tick yet, empty budget, no move, intro not run. |
| Tui.Model.FrameDuration | internal/tui/model.go:173-191 | 1/60 s while not ready, during the intro or while the game runs; 1/15 s with no bricks or after game over; 1/30 s once cleared. Each if and only if. |
| Tui.Model.WindowSize | internal/tui/model.go:94-98 | The window size is recorded and rebuild runs for it: the grid is BuildBrickGrid for the new width, the state a fresh NewState for the clamped field, noBricks iff no live brick, no tick recorded, budget 0, canvas reset, intro ArmIntro of the new game; seed, speed and move are kept, and login and calendar are outside its frame. |
| Tui.Model.Rebuild | internal/tui/model.go:193-253 | The grid is BuildBrickGrid for max((w-2)/2, 1) columns. The state is a fresh NewState for the clamped field. noBricks iff no live brick. No tick recorded, budget 0, canvas reset. The intro is ArmIntro of the new game. Window, seed, speed and move are kept; login and calendar are outside its frame. |
| Tui.Model.StartGame | internal/tui/model.go:210-252 | The part of rebuild after the grid is built: fresh NewState, noBricks, clock, budget, canvas and intro as in rebuild. |
| Tui.Model.ResetGame | internal/tui/model.go:255-277 | The seed moves to the next uint64 (wrapping). A fresh NewState is built on the same grid and window. noBricks is recomputed; no tick recorded; budget 0. The intro, readiness and move are kept; login, calendar, grid and window are outside its frame. |
| Tui.Model.UpdateIntro | internal/tui/model.go:419-439 | The intro is advanced as IntroAdvanced states: nothing changes unless built and the intro is active. An intro without columns or pace just ends. Otherwise each whole step of the banked time reveals one more column: revealed never decreases and stays within the total; the bank keeps the time not spent, below a step while columns remain; the intro ends (and is done) exactly when all columns are shown. |
| Tui.Model.Drain | internal/tui/model.go:125-137 | Nothing happens unless running, and the engine state is untouched. Otherwise exactly StepsDue(acc) more calls of Step are recorded in the state's Trace, each with step length 1/120 and the latched move, and each taking one quantum from the budget. The game afterwards is exactly StepN of the game before over those steps, so no other write to the engine state happens. Fewer than 10: exactly those quanta are spent. 10: the rest is reduced mod 1/120. Afterwards 0 <= acc < 1/120 and the move is cleared. |
| Tui.Model.Tick | internal/tui/model.go:99-138 | The first tick after a (re)build only records the time. Later ones clamp dt, advance the intro by exactly updateIntro's effect (IntroAdvanced) for that clamped dt, and bank dt*speed*1.25 even when not running. Whether the game runs is judged on the advanced intro. Running: the state's Trace grows by StepsDue of the bank copies of (1/120, latched move), the game becomes StepN of the old one over those steps, leaving 0 <= acc < 1/120 and no move; otherwise the bank is kept and the engine state is untouched. The result is frameDuration. |
| Tui.Model.Elapse | internal/tui/model.go:116-137 | A tick after the first, for a clamped dt: the intro advances as IntroAdvanced states (never hiding a column or undoing done), dt*speed*1.25 is banked, and the drain runs as Drain states on the advanced intro. |
| Tui.Model.RunSteps | internal/tui/model.go:126-131 | The stepping loop stops after exactly StepsDue of the budget steps; each one took a quantum, logged (1/120, move) and played StepFn, and the state stays Valid. |
| Tui.Model.StepOnce | internal/tui/model.go:127-129 | One loop iteration carries the drain from n steps to n+1: one more quantum spent, one more (1/120, move) logged, one more StepFn played. |
| Tui.Model.Key | internal/tui/model.go:139-167 | "ctrl+c" and "q" quit, and only they do. "r"/"R" once the intro is over reseeds and restarts the game (noBricks recomputed, no tick recorded, budget 0), and nothing else touches seed, state, noBricks, budget or clock; window, grid, readiness, login and calendar are outside its frame. "+"/"=" and "-"/"_" change the speed. Left and right keys latch -1/+1 except during the intro. The intro is untouched. |

## Left out

- Rendering: `View`, `renderHUD`, `renderFieldFastTo`, `renderFieldCanvasTo`, `applyOverlay` and the lipgloss styles. They produce ANSI text through a foreign library. Only the canvas buffer they draw on is modelled.
- Confetti (`updateParty`, the `confetti` and `confettiSpawn` fields): cosmetic particles from a random generator. The tick handler's call to it is not modelled.
- The `spaceLine` caches and `viewBuf`: per-frame rendering buffers.
- The PCG generator and its seeding. Each `rng.Float64()` the engine uses is a parameter `draw` in [0, 1). The model's `rng` field is not represented.
- IEEE-754 rounding of `float64` and of `math.Mod`. The model computes exactly over reals.
- Bubble Tea plumbing: `tickCmd`, `Init`, message dispatch and `tea.Quit`. A tick carries a wall-clock time in seconds, a key is its string name, and the handlers return the next frame delay or whether to quit.
- Network and environment access: `graphqlRequest`, the `fetch*With*` functions and `useTokenClient`. The entry points end in a `FetchRequest` value describing the request that would be made.
- The cmd package (flag parsing, date parsing, dispatch). It is not part of this model.
- Errors.UserNotFoundText: quotes the login verbatim, while Go's `%q` would also escape quotes, backslashes and non-printable characters. GitHub logins contain none of these.
- Contrib.WeeksRange: `AddDate(0, 0, -7*weeks)` on a UTC time is modelled as subtracting 7*weeks*86400 seconds, which is the same instant in UTC.
- Strength.HPFromCount: `math.Ceil` of the float quotient is modelled as exact integer ceiling division. The two agree for all counts small enough to be represented exactly.
- Engine.State.Step: the state invariant `Valid` covers the brick bookkeeping and the field's dimensions. It does not bound the ball's position or velocity between steps.
- Errors.ToLower: folds ASCII letters and the two non-ASCII characters whose lower case is ASCII (U+0130, U+212A). Go also lowers other non-ASCII letters to non-ASCII ones; the model keeps them, which cannot change any phrase test (`Errors.AuthPhraseSeesOnlyAscii`).
- Engine.State.Strike: the brick matrices are `seq` fields, so Go's in-place decrement of `Bricks[br][bc]` is modelled as reassigning the field to the worn matrix. Aliasing between the rows of `Bricks` and `BrickMax` is not captured; in Go they are separate slices, so no alias exists.

=== FILE: bricks.dfy ===
/**
 * The brick field of the engine (internal/game/engine.go): HP matrices, counting live
 * bricks, wearing a brick down, and a brick collision as a function on values.
 */
module BrickField {
  import opened GoMath
  import opened Strength
  import opened Physics

  // ----- counting live bricks -----

  function Live(hp: int): nat
  {
    if hp > 0 then 1 else 0
  }

  /** Number of entries above 0 among the first n of a row. */
  function LiveIn(s: seq<int>, n: nat): (k: nat)
    requires n <= |s|
    ensures k <= n
  {
    if n == 0 then 0 else LiveIn(s, n - 1) + Live(s[n - 1])
  }

  /** Number of entries above 0 among the first n rows of a matrix. */
  function LiveInRows(g: seq<seq<int>>, n: nat): nat
    requires n <= |g|
  {
    if n == 0 then 0 else LiveInRows(g, n - 1) + LiveRow(g[n - 1])
  }

  /** Number of entries above 0 in a row. */
  function LiveRow(s: seq<int>): nat
  {
    LiveIn(s, |s|)
  }

  /** Number of entries above 0 in a matrix. */
  function LiveCount(g: seq<seq<int>>): nat
  {
    LiveInRows(g, |g|)
  }

  /** Changing one entry changes the count of a prefix holding it by the difference of the indicators. */
  lemma {:induction false} LiveInUpdate(s: seq<int>, n: nat, i: int, v: int)
    requires n <= |s| && 0 <= i < |s|
    ensures LiveIn(s[i := v], n) == LiveIn(s, n) - (if i < n then Live(s[i]) - Live(v) else 0)
  {
    if n > 0 {
      LiveInUpdate(s, n - 1, i, v);
    }
  }

  lemma LiveRowUpdate(s: seq<int>, i: int, v: int)
    requires 0 <= i < |s|
    ensures LiveRow(s[i := v]) == LiveRow(s) - Live(s[i]) + Live(v)
  {
    LiveInUpdate(s, |s|, i, v);
  }

  /** Replacing one row changes the count of a prefix holding it by the difference of the row counts. */
  lemma {:induction false} LiveInRowsUpdate(g: seq<seq<int>>, n: nat, i: int, row: seq<int>)
    requires n <= |g| && 0 <= i < |g|
    ensures LiveInRows(g[i := row], n) == LiveInRows(g, n) - (if i < n then LiveRow(g[i]) - LiveRow(row) else 0)
  {
    if n > 0 {
      LiveInRowsUpdate(g, n - 1, i, row);
    }
  }

  lemma LiveCountUpdate(g: seq<seq<int>>, i: int, row: seq<int>)
    requires 0 <= i < |g|
    ensures LiveCount(g[i := row]) == LiveCount(g) - LiveRow(g[i]) + LiveRow(row)
  {
    LiveInRowsUpdate(g, |g|, i, row);
  }

  /** A row whose live entries are live in another row has no more of them. */
  lemma {:induction false} LiveInMono(s: seq<int>, t: seq<int>, n: nat)
    requires n <= |s| == |t|
    requires forall i :: 0 <= i < |s| && s[i] > 0 ==> t[i] > 0
    ensures LiveIn(s, n) <= LiveIn(t, n)
  {
    if n > 0 {
      LiveInMono(s, t, n - 1);
    }
  }

  lemma {:induction false} LiveInRowsMono(g: seq<seq<int>>, h: seq<seq<int>>, n: nat)
    requires n <= |g| == |h|
    requires forall r :: 0 <= r < |g| ==> |g[r]| == |h[r]|
    requires forall r, c :: 0 <= r < |g| && 0 <= c < |g[r]| && g[r][c] > 0 ==> h[r][c] > 0
    ensures LiveInRows(g, n) <= LiveInRows(h, n)
  {
    if n > 0 {
      LiveInRowsMono(g, h, n - 1);
      LiveInMono(g[n - 1], h[n - 1], |g[n - 1]|);
    }
  }

  /** HP of every cell of a grid, row by row. */
  function HPMatrix(grid: BrickGrid): (m: seq<seq<int>>)
    requires Fits(grid)
    ensures |m| == grid.rows
    ensures forall r :: 0 <= r < grid.rows ==> |m[r]| == grid.cols
    ensures forall r, c :: 0 <= r < grid.rows && 0 <= c < grid.cols ==> m[r][c] == grid.cells[r][c].hp
  {
    HPRows(grid.cells, grid.rows, grid.cols)
  }

  function HPRow(row: seq<BrickCell>, n: nat): (s: seq<int>)
    requires n <= |row|
    ensures |s| == n && forall c :: 0 <= c < n ==> s[c] == row[c].hp
  {
    if n == 0 then [] else HPRow(row, n - 1) + [row[n - 1].hp]
  }

  function HPRows(cells: seq<seq<BrickCell>>, n: nat, cols: nat): (m: seq<seq<int>>)
    requires n <= |cells| && forall r :: 0 <= r < n ==> cols <= |cells[r]|
    ensures |m| == n && forall r :: 0 <= r < n ==> m[r] == HPRow(cells[r], cols)
  {
    if n == 0 then [] else HPRows(cells, n - 1, cols) + [HPRow(cells[n - 1], cols)]
  }

  /** The grid has the rows and columns it claims (NewState reads Cells[r][c] for r < Rows, c < Cols). */
  predicate Fits(grid: BrickGrid)
  {
    0 <= grid.rows <= |grid.cells| && 0 <= grid.cols
    && forall r :: 0 <= r < grid.rows ==> grid.cols <= |grid.cells[r]|
  }

  /** The brick cell under a ball: row from the top offset, column by Go's truncating division. */
  function CellOf(b: Ball, topOffset: int, brickW: int): (cell: (int, int))
    requires brickW > 0
    ensures (cell.0 + topOffset) as real <= b.y < (cell.0 + topOffset + 1) as real
    ensures b.y >= 0.0 ==> cell.0 >= -topOffset
    ensures b.x >= 0.0 ==> cell.1 >= 0 && cell.1 * brickW <= b.x.Floor < (cell.1 + 1) * brickW
  {
    (b.y.Floor - topOffset, Quo(b.x.Floor, brickW))
  }

  /** There is a brick at (br, bc) with HP left. */
  predicate HitsLive(bricks: seq<seq<int>>, br: int, bc: int)
  {
    0 <= br < |bricks| && 0 <= bc < |bricks[br]| && bricks[br][bc] > 0
  }

  /** The bricks after the one at (br, bc) loses one HP. */
  function Worn(bricks: seq<seq<int>>, br: int, bc: int): (w: seq<seq<int>>)
    requires HitsLive(bricks, br, bc)
    ensures |w| == |bricks| && forall r :: 0 <= r < |w| ==> |w[r]| == |bricks[r]|
    ensures LiveCount(w) == LiveCount(bricks) - (if bricks[br][bc] == 1 then 1 else 0)
  {
    LiveRowUpdate(bricks[br], bc, bricks[br][bc] - 1);
    LiveCountUpdate(bricks, br, bricks[br][bc := bricks[br][bc] - 1]);
    bricks[br := bricks[br][bc := bricks[br][bc] - 1]]
  }

  /** Wearing changes exactly the struck brick, by one HP. */
  lemma WornCells(bricks: seq<seq<int>>, br: int, bc: int)
    requires HitsLive(bricks, br, bc)
    ensures forall r, c :: 0 <= r < |bricks| && 0 <= c < |bricks[r]| ==>
      Worn(bricks, br, bc)[r][c] == bricks[r][c] - (if r == br && c == bc then 1 else 0)
  {
  }

  /**
   * Every brick is untouched (at its initial HP) or worn down to between 0 and below its
   * initial HP.
   */
  ghost predicate WornDown(bricks: seq<seq<int>>, brickMax: seq<seq<int>>)
  {
    && |bricks| == |brickMax|
    && (forall r :: 0 <= r < |bricks| ==> |bricks[r]| == |brickMax[r]|)
    && forall r, c :: 0 <= r < |bricks| && 0 <= c < |bricks[r]| ==>
         bricks[r][c] == brickMax[r][c] || 0 <= bricks[r][c] < brickMax[r][c]
  }

  /** Striking a live brick keeps every brick worn down from its initial HP. */
  lemma WornKeepsWornDown(bricks: seq<seq<int>>, brickMax: seq<seq<int>>, br: int, bc: int)
    requires WornDown(bricks, brickMax) && HitsLive(bricks, br, bc)
    ensures WornDown(Worn(bricks, br, bc), brickMax)
  {
    WornCells(bricks, br, bc);
  }

  /** Worn-down bricks never have more live cells than the initial ones. */
  lemma WornDownLiveCount(bricks: seq<seq<int>>, brickMax: seq<seq<int>>)
    requires WornDown(bricks, brickMax)
    ensures LiveCount(bricks) <= LiveCount(brickMax)
  {
    LiveInRowsMono(bricks, brickMax, |bricks|);
  }

  /** The grids have the same number of rows and each row the same number of cells. */
  predicate SameShape(bricks: seq<seq<int>>, brickMax: seq<seq<int>>)
  {
    |bricks| == |brickMax| && forall r :: 0 <= r < |bricks| ==> |bricks[r]| == |brickMax[r]|
  }

  function CellLeft(bc: int, brickW: int): real
  {
    (bc * brickW) as real
  }

  function CellTop(br: int, topOffset: int): real
  {
    (topOffset + br) as real
  }

  /** The part of the engine state a brick collision reads and writes. */
  datatype Field = Field(bricks: seq<seq<int>>, score: int, remaining: int, cleared: bool, ball: Ball)

  /**
   * Brick collision for a ball that was at (prevX, prevY) before the step: the live brick
   * under the ball, if any, loses one HP, adds 10 times its initial HP (at least 10) to the
   * score, bounces the ball, and clears the field if it was the last live brick; with no
   * live brick under the ball nothing changes.
   */
  function Collision(f: Field, brickMax: seq<seq<int>>, prevX: real, prevY: real, topOffset: int, brickW: int): Field
    requires brickW > 0 && SameShape(f.bricks, brickMax)
  {
    var cell := CellOf(f.ball, topOffset, brickW);
    var br, bc := cell.0, cell.1;
    if HitsLive(f.bricks, br, bc) then
      var bricks := Worn(f.bricks, br, bc);
      var remaining := f.remaining - (if bricks[br][bc] == 0 then 1 else 0);
      Field(bricks, f.score + 10 * Max(brickMax[br][bc], 1), remaining,
            f.cleared || (bricks[br][bc] == 0 && remaining <= 0),
            BrickBounce(prevX, prevY, f.ball, CellLeft(bc, brickW), CellLeft(bc + 1, brickW), CellTop(br, topOffset)))
    else
      f
  }

  /** Collision on a hit, field by field. */
  lemma CollisionOnHit(f: Field, brickMax: seq<seq<int>>, prevX: real, prevY: real, topOffset: int, brickW: int)
    requires brickW > 0 && SameShape(f.bricks, brickMax)
    requires var cell := CellOf(f.ball, topOffset, brickW); HitsLive(f.bricks, cell.0, cell.1)
    ensures var cell := CellOf(f.ball, topOffset, brickW);
      var br, bc := cell.0, cell.1;
      var r := Collision(f, brickMax, prevX, prevY, topOffset, brickW);
      && r.bricks == Worn(f.bricks, br, bc)
      && r.score == f.score + 10 * Max(brickMax[br][bc], 1)
      && r.remaining == f.remaining - (if r.bricks[br][bc] == 0 then 1 else 0)
      && r.cleared == (f.cleared || (r.bricks[br][bc] == 0 && r.remaining <= 0))
      && r.ball == BrickBounce(prevX, prevY, f.ball, CellLeft(bc, brickW), CellLeft(bc + 1, brickW), CellTop(br, topOffset))
  {
  }

  /**
   * A collision keeps the grid's shape; a miss changes nothing; a hit wears the brick, scores
   * at least 10, removes at most one live brick and clears the field exactly when the last one
   * went; and a remaining-count that matched the grid still matches it.
   */
  lemma CollisionFacts(f: Field, brickMax: seq<seq<int>>, prevX: real, prevY: real, topOffset: int, brickW: int)
    requires brickW > 0 && SameShape(f.bricks, brickMax)
    ensures var r := Collision(f, brickMax, prevX, prevY, topOffset, brickW);
      SameShape(r.bricks, brickMax)
    ensures var cell := CellOf(f.ball, topOffset, brickW);
      !HitsLive(f.bricks, cell.0, cell.1) ==> Collision(f, brickMax, prevX, prevY, topOffset, brickW) == f
    ensures var cell := CellOf(f.ball, topOffset, brickW);
      var r := Collision(f, brickMax, prevX, prevY, topOffset, brickW);
      HitsLive(f.bricks, cell.0, cell.1) ==>
        && r.bricks == Worn(f.bricks, cell.0, cell.1)
        && r.score >= f.score + 10
        && (r.remaining == f.remaining || r.remaining == f.remaining - 1)
        && (r.cleared <==> f.cleared || (r.bricks[cell.0][cell.1] == 0 && r.remaining <= 0))
    ensures var r := Collision(f, brickMax, prevX, prevY, topOffset, brickW);
      f.remaining == LiveCount(f.bricks) ==> r.remaining == LiveCount(r.bricks)
  {
  }

  /**
   * The grids have the same shape, every brick is at its initial HP or worn down to between 0
   * and below it, the two counters count the live cells of the initial and the current grid,
   * and only a field without live bricks is cleared.
   */
  ghost predicate Counted(bricks: seq<seq<int>>, brickMax: seq<seq<int>>, total: int, remaining: int, cleared: bool)
  {
    && SameShape(bricks, brickMax)
    && WornDown(bricks, brickMax)
    && total == LiveCount(brickMax)
    && remaining == LiveCount(bricks)
    && (cleared ==> remaining == 0)
  }

  /** In a counted field no more bricks remain than there were, and none remain once cleared. */
  lemma CountedBounds(bricks: seq<seq<int>>, brickMax: seq<seq<int>>, total: int, remaining: int, cleared: bool)
    requires Counted(bricks, brickMax, total, remaining, cleared)
    ensures 0 <= remaining <= total
    ensures cleared ==> remaining == 0
  {
    WornDownLiveCount(bricks, brickMax);
  }
}

=== FILE: canvas.dfy ===
/**
 * The overlay canvas of the terminal UI (canvasBuf in internal/tui/model.go): a w x h grid of
 * cell strings stored row by row in one flat buffer that is written in place.
 */
module Canvas {

  /** (x, y) lies on a w x h grid. */
  predicate InBounds(x: int, y: int, w: int, h: int)
  {
    0 <= x < w && 0 <= y < h
  }

  /** Where on-grid cell (x, y) lives in the flat buffer of w*h cells: y*w + x. */
  function FlatIndex(x: int, y: int, w: int, h: int): (i: int)
    requires InBounds(x, y, w, h)
    ensures 0 <= i < w * h
  {
    FlatIndexInRange(x, y, w, h);
    y * w + x
  }

  /** Rows a < b start at least a whole row apart: a*w + w <= b*w. */
  lemma RowStartsApart(a: int, b: int, w: int)
    requires 0 <= a < b && w >= 0
    ensures a * w + w <= b * w
  {
    var d := b - a - 1;
    assert d >= 0;
    assert d * w >= 0;
    assert b * w == a * w + w + d * w;
  }

  /** Every on-grid point has its slot inside the buffer of w*h cells. */
  lemma FlatIndexInRange(x: int, y: int, w: int, h: int)
    requires InBounds(x, y, w, h)
    ensures 0 <= y * w + x < w * h
  {
    assert y * w >= 0;
    RowStartsApart(y, h, w);
    assert w * h == h * w;
  }

  /** Distinct on-grid points have distinct slots, so a write to one leaves the others alone. */
  lemma FlatIndexInjective(x1: int, y1: int, x2: int, y2: int, w: int, h: int)
    requires InBounds(x1, y1, w, h) && InBounds(x2, y2, w, h)
    ensures FlatIndex(x1, y1, w, h) == FlatIndex(x2, y2, w, h) <==> x1 == x2 && y1 == y2
  {
    if y1 < y2 {
      RowStartsApart(y1, y2, w);
    } else if y2 < y1 {
      RowStartsApart(y2, y1, w);
    }
  }

  class CanvasBuf {
    var w: int
    var h: int
    var cells: array<string>   // flat: cell (x, y) at y*w + x

    /** Either empty with no dimensions, or w x h cells for positive w and h. */
    ghost predicate Valid()
      reads this
    {
      ((w == 0 && h == 0) || (w > 0 && h > 0)) && cells.Length == w * h
    }

    /** The cell at (x, y). */
    function At(x: int, y: int): string
      requires Valid() && InBounds(x, y, w, h)
      reads this, cells
    {
      cells[FlatIndex(x, y, w, h)]
    }

    /** The zero value: no dimensions and no cells. */
    constructor ()
      ensures Valid() && w == 0 && h == 0 && cells.Length == 0
    {
      w, h := 0, 0;
      cells := new string[0];
    }

    /** Drops the dimensions and the cells. */
    method Reset()
      modifies this
      ensures Valid() && w == 0 && h == 0 && cells.Length == 0
    {
      w, h := 0, 0;
      cells := new string[0];
    }

    /**
     * A non-positive dimension resets the canvas. The same dimensions keep the buffer and its
     * contents; new ones give a fresh buffer of w*h empty cells.
     */
    method Resize(nw: int, nh: int)
      requires Valid()
      modifies this
      ensures Valid()
      ensures nw <= 0 || nh <= 0 ==> w == 0 && h == 0 && cells.Length == 0
      ensures nw > 0 && nh > 0 ==> w == nw && h == nh && cells.Length == nw * nh
      ensures nw > 0 && nh > 0 && old(w) == nw && old(h) == nh ==>
        cells == old(cells) && cells[..] == old(cells[..])
      ensures nw > 0 && nh > 0 && !(old(w) == nw && old(h) == nh) ==>
        fresh(cells) && forall i :: 0 <= i < cells.Length ==> cells[i] == ""
    {
      if nw <= 0 || nh <= 0 {
        Reset();
        return;
      }
      var n := nw * nh;
      if w == nw && h == nh && cells.Length >= n {
        // Go reslices cells[:n]; the buffer already holds exactly n cells.
        return;
      }
      w, h := nw, nh;
      cells := new string[n](_ => "");
    }

    /** Every cell becomes `cell`. */
    method Fill(cell: string)
      modifies cells
      ensures forall i :: 0 <= i < cells.Length ==> cells[i] == cell
    {
      for i := 0 to cells.Length
        invariant forall j :: 0 <= j < i ==> cells[j] == cell
      {
        cells[i] := cell;
      }
    }

    /**
     * Writes `cell` at (x, y) when that point is on the grid; a point off the grid is ignored.
     * No other cell changes.
     */
    method Set(x: int, y: int, cell: string)
      requires Valid()
      modifies cells
      ensures Valid()
      ensures !InBounds(x, y, w, h) ==> cells[..] == old(cells[..])
      ensures InBounds(x, y, w, h) ==> cells[..] == old(cells[..])[FlatIndex(x, y, w, h) := cell]
      ensures InBounds(x, y, w, h) ==> At(x, y) == cell
      ensures forall x', y' :: InBounds(x', y', w, h) && (x', y') != (x, y) ==> At(x', y') == old(At(x', y'))
    {
      if x < 0 || y < 0 || x >= w || y >= h {
        return;
      }
      FlatIndexInRange(x, y, w, h);
      cells[y * w + x] := cell;
      forall x', y' | InBounds(x', y', w, h) && (x', y') != (x, y)
        ensures At(x', y') == old(At(x', y'))
      {
        FlatIndexInjective(x, y, x', y', w, h);
      }
    }
  }
}

=== FILE: contrib.dfy ===
/**
 * The contribution calendar as fetched from GitHub, the two request validators and the
 * validation prefix of the four public Fetch entry points (internal/github/contrib.go).
 * Times are whole seconds since the Unix epoch; Go's zero `time.Time`
 * (0001-01-01T00:00:00Z) is the distinguished instant ZeroTime.
 */
module Contrib {
  import opened Wrappers

  /** One day of the calendar; the weekday is GitHub's numbering, 0 = Sunday. */
  datatype Day = Day(date: string, weekday: int, contributionCount: int)

  datatype Week = Week(contributionDays: seq<Day>)

  datatype Calendar = Calendar(weeks: seq<Week>)

  type Time = int

  const ZeroTime: Time := -62135596800
  /** 2008-04-10T00:00:00Z. */
  const Launch: Time := 1207785600
  const SecondsPerDay: int := 86400
  /** The longest range accepted: 366 days, to allow for leap years. */
  const MaxSpan: int := 366 * SecondsPerDay
  const MaxWeeks: int := 52

  /** The errors the validators and entry points return before any request is made. */
  datatype RequestError =
    | WeeksNotPositive
    | WeeksTooMany
    | RangeUnset
    | RangeReversed
    | BeforeLaunch
    | SpanTooLong
    | EmptyLogin

  function Message(e: RequestError): (m: string)
    ensures m != ""
  {
    match e
    case WeeksNotPositive => "weeks must be > 0"
    case WeeksTooMany => "weeks must be between 1 and 52 (GitHub API limit: 1 year)"
    case RangeUnset => "from/to must be set"
    case RangeReversed => "from must be <= to"
    case BeforeLaunch => "date range must be on/after 2008-04-10 (GitHub launch)"
    case SpanTooLong => "date range must not exceed 1 year (GitHub API limit)"
    case EmptyLogin => "user login must not be empty"
  }

  function ValidateWeeks(weeks: int): (r: Option<RequestError>)
    ensures r == None <==> 1 <= weeks <= MaxWeeks
    ensures r == Some(WeeksNotPositive) <==> weeks <= 0
    ensures r == Some(WeeksTooMany) <==> weeks > MaxWeeks
  {
    if weeks <= 0 then Some(WeeksNotPositive)
    else if weeks > MaxWeeks then Some(WeeksTooMany)
    else None
  }

  /** The range conditions the validator accepts, stated all at once. */
  predicate RangeAcceptable(from: Time, to: Time)
  {
    from != ZeroTime && to != ZeroTime && from <= to
    && Launch <= from && Launch <= to && to - from <= MaxSpan
  }

  /** The checks run in order: unset, then order, then launch, then span; the first to fail names the error. */
  function ValidateRange(from: Time, to: Time): (r: Option<RequestError>)
    ensures r == None <==> RangeAcceptable(from, to)
    ensures r == Some(RangeUnset) <==> (from == ZeroTime || to == ZeroTime)
    ensures r == Some(RangeReversed) <==> (from != ZeroTime && to != ZeroTime && from > to)
    ensures r == Some(BeforeLaunch) <==>
      (from != ZeroTime && to != ZeroTime && from <= to && (from < Launch || to < Launch))
    ensures r == Some(SpanTooLong) <==>
      (from != ZeroTime && to != ZeroTime && Launch <= from <= to && to - from > MaxSpan)
  {
    if from == ZeroTime || to == ZeroTime then Some(RangeUnset)
    else if from > to then Some(RangeReversed)
    else if from < Launch || to < Launch then Some(BeforeLaunch)
    else if to - from > MaxSpan then Some(SpanTooLong)
    else None
  }

  /**
   * The boundaries of the range check. The first three ranges are those of the package's own
   * test around the launch date: a range whose end is a second before launch is rejected, and
   * it is rejected as reversed, since that test comes before the launch test. The last two sit
   * on either side of the 366-day limit.
   */
  lemma ValidateRangeBoundaries()
    ensures ValidateRange(Launch, Launch + SecondsPerDay) == None
    ensures ValidateRange(Launch - SecondsPerDay, Launch + SecondsPerDay) == Some(BeforeLaunch)
    ensures ValidateRange(Launch, Launch - 1) == Some(RangeReversed)
    ensures ValidateRange(Launch, Launch + MaxSpan) == None
    ensures ValidateRange(Launch, Launch + MaxSpan + 1) == Some(SpanTooLong)
  {
  }

  /** Whose calendar a request asks for. */
  datatype Subject = Viewer | User(login: string)

  /** The request an entry point hands to the network layer once its input is valid. */
  datatype FetchRequest = FetchRequest(subject: Subject, from: Time, to: Time)

  /** The range covered by the last `weeks` weeks ending at `now` (AddDate on a UTC time). */
  function WeeksRange(weeks: int, now: Time): (r: (Time, Time))
    ensures r.1 == now && r.1 - r.0 == 7 * weeks * SecondsPerDay
  {
    (now - 7 * weeks * SecondsPerDay, now)
  }

  function FetchViewerContributionCalendar(weeks: int, now: Time): (r: Result<FetchRequest, RequestError>)
    ensures r.Failure? <==> ValidateWeeks(weeks).Some?
    ensures r.Failure? ==> Some(r.error) == ValidateWeeks(weeks)
    ensures r.Success? ==>
      (r.value.subject == Viewer && r.value.to == now
       && r.value.to - r.value.from == 7 * weeks * SecondsPerDay)
  {
    match ValidateWeeks(weeks)
    case Some(e) => Failure(e)
    case None =>
      var (from, to) := WeeksRange(weeks, now);
      Success(FetchRequest(Viewer, from, to))
  }

  function FetchUserContributionCalendar(login: string, weeks: int, now: Time): (r: Result<FetchRequest, RequestError>)
    ensures login == "" ==> r == Failure(EmptyLogin)
    ensures login != "" ==> (r.Failure? <==> ValidateWeeks(weeks).Some?)
    ensures login != "" && r.Failure? ==> Some(r.error) == ValidateWeeks(weeks)
    ensures r.Success? ==>
      (r.value.subject == User(login) && r.value.to == now
       && r.value.to - r.value.from == 7 * weeks * SecondsPerDay)
  {
    if login == "" then Failure(EmptyLogin)
    else match ValidateWeeks(weeks)
      case Some(e) => Failure(e)
      case None =>
        var (from, to) := WeeksRange(weeks, now);
        Success(FetchRequest(User(login), from, to))
  }

  function FetchViewerContributionCalendarRange(from: Time, to: Time): (r: Result<FetchRequest, RequestError>)
    ensures r.Success? <==> RangeAcceptable(from, to)
    ensures r.Failure? ==> Some(r.error) == ValidateRange(from, to)
    ensures r.Success? ==> r.value == FetchRequest(Viewer, from, to)
  {
    match ValidateRange(from, to)
    case Some(e) => Failure(e)
    case None => Success(FetchRequest(Viewer, from, to))
  }

  function FetchUserContributionCalendarRange(login: string, from: Time, to: Time): (r: Result<FetchRequest, RequestError>)
    ensures login == "" ==> r == Failure(EmptyLogin)
    ensures login != "" ==> (r.Success? <==> RangeAcceptable(from, to))
    ensures login != "" && r.Failure? ==> Some(r.error) == ValidateRange(from, to)
    ensures r.Success? ==> r.value == FetchRequest(User(login), from, to)
  {
    if login == "" then Failure(EmptyLogin)
    else match ValidateRange(from, to)
      case Some(e) => Failure(e)
      case None => Success(FetchRequest(User(login), from, to))
  }

  /**
   * A weeks-mode request always satisfies the range validator once `now` is at least
   * 52 weeks after launch: its span is at most 364 days.
   */
  lemma {:induction false} WeeksRequestPassesRangeCheck(weeks: int, now: Time)
    requires ValidateWeeks(weeks) == None
    requires now >= Launch + 7 * MaxWeeks * SecondsPerDay
    ensures FetchViewerContributionCalendar(weeks, now).Success?
    ensures var q := FetchViewerContributionCalendar(weeks, now).value;
      ValidateRange(q.from, q.to) == None
  {
    var q := FetchViewerContributionCalendar(weeks, now).value;
    assert 7 * weeks * SecondsPerDay <= 7 * MaxWeeks * SecondsPerDay;
    assert q.to - q.from <= MaxSpan;
  }
}

=== FILE: engine.dfy ===
/**
 * The simulation engine's state (internal/game/engine.go): NewState, ResetBall and Step on
 * a class whose fields the engine updates in place.
 */
module Engine {
  import opened GoMath
  import opened Strength
  import opened Physics
  import opened BrickField

  /** NewState's copy loop: the grid's HP matrix, and how many of its bricks are live. */
  method CopyHP(grid: BrickGrid) returns (bricks: seq<seq<int>>, remain: int)
    requires Fits(grid)
    ensures bricks == HPMatrix(grid)
    ensures remain == LiveCount(bricks)
  {
    ghost var hps := HPMatrix(grid);
    bricks := [];
    remain := 0;
    for r := 0 to grid.rows
      invariant bricks == hps[..r]
      invariant remain == LiveInRows(hps, r)
    {
      var row, live := CopyRow(grid, r);
      remain := remain + live;
      bricks := bricks + [row];
    }
    assert bricks == hps;
  }

  /** One row of the copy: the HP of row r's first cols cells, and how many are live. */
  method CopyRow(grid: BrickGrid, r: int) returns (row: seq<int>, live: int)
    requires Fits(grid) && 0 <= r < grid.rows
    ensures row == HPMatrix(grid)[r]
    ensures live == LiveRow(row)
  {
    ghost var hps := HPMatrix(grid);
    row := [];
    live := 0;
    for c := 0 to grid.cols
      invariant row == hps[r][..c]
      invariant live == LiveIn(hps[r], c)
    {
      var hp := grid.cells[r][c].hp;
      row := row + [hp];
      if hp > 0 {
        live := live + 1;
      }
    }
    assert row == hps[r];
  }

  // NewState always sets these to the same values; nothing changes them afterwards.
  const TopOffset: int := 7
  const TopWallY: int := TopOffset - 1
  const BrickW: int := 2

  /** What a step leaves as it is: the field's size, the paddle's width and row, the initial HP. */
  datatype Arena = Arena(width: int, height: int, paddleW: real, paddleY: real, brickMax: seq<seq<int>>)

  /** What a step may change: the paddle, the bricks with score, counter, flag and ball, and GameOver. */
  datatype Game = Game(paddleX: real, field: Field, gameOver: bool)

  /** A game a step can run on: a paddle of some width, and a grid shaped like the initial one. */
  predicate Matches(g: Game, a: Arena)
  {
    a.paddleW > 0.0 && SameShape(g.field.bricks, a.brickMax)
  }

  /**
   * One physics step of length dt with a move, on values: a finished game (cleared or over)
   * is left as it is; otherwise the paddle moves, the ball advances against the moved paddle
   * and collides with the brick under it, and the game is over when the ball ends below the
   * field. The grid keeps its shape and the score never drops.
   */
  function StepFn(g: Game, a: Arena, dt: real, move: int): (r: Game)
    requires Matches(g, a)
    ensures Matches(r, a)
    ensures r.field.score >= g.field.score
  {
    if g.field.cleared || g.gameOver then g
    else
      var paddleX := MovePaddle(g.paddleX, a.paddleW, a.width, move, dt);
      var moved := g.field.(ball := Advance(g.field.ball, dt, a.width, TopWallY, paddleX, a.paddleW, a.paddleY));
      CollisionFacts(moved, a.brickMax, g.field.ball.x, g.field.ball.y, TopOffset, BrickW);
      var f := Collision(moved, a.brickMax, g.field.ball.x, g.field.ball.y, TopOffset, BrickW);
      Game(paddleX, f, f.ball.y > a.height as real)
  }

  /** n steps of length dt, each handed the same move. */
  function StepN(g: Game, a: Arena, dt: real, move: int, n: nat): (r: Game)
    requires Matches(g, a)
    ensures Matches(r, a)
  {
    if n == 0 then g else StepFn(StepN(g, a, dt, move, n - 1), a, dt, move)
  }

  /** A step keeps the brick bookkeeping consistent: worn-down bricks, both counters, Cleared. */
  lemma StepCounted(g: Game, a: Arena, dt: real, move: int, total: int)
    requires a.paddleW > 0.0 && Counted(g.field.bricks, a.brickMax, total, g.field.remaining, g.field.cleared)
    ensures var r := StepFn(g, a, dt, move);
      Counted(r.field.bricks, a.brickMax, total, r.field.remaining, r.field.cleared)
  {
    if !(g.field.cleared || g.gameOver) {
      var paddleX := MovePaddle(g.paddleX, a.paddleW, a.width, move, dt);
      var moved := g.field.(ball := Advance(g.field.ball, dt, a.width, TopWallY, paddleX, a.paddleW, a.paddleY));
      CollisionFacts(moved, a.brickMax, g.field.ball.x, g.field.ball.y, TopOffset, BrickW);
      var cell := CellOf(moved.ball, TopOffset, BrickW);
      if HitsLive(moved.bricks, cell.0, cell.1) {
        WornKeepsWornDown(moved.bricks, a.brickMax, cell.0, cell.1);
      }
    }
  }

  /** Any number of steps keeps the brick bookkeeping consistent. */
  lemma {:induction false} StepNCounted(g: Game, a: Arena, dt: real, move: int, n: nat, total: int)
    requires a.paddleW > 0.0 && Counted(g.field.bricks, a.brickMax, total, g.field.remaining, g.field.cleared)
    ensures var r := StepN(g, a, dt, move, n);
      Counted(r.field.bricks, a.brickMax, total, r.field.remaining, r.field.cleared)
  {
    if n > 0 {
      StepNCounted(g, a, dt, move, n - 1, total);
      StepCounted(StepN(g, a, dt, move, n - 1), a, dt, move, total);
    }
  }

  /** Over any number of steps the score never drops. */
  lemma {:induction false} StepNScore(g: Game, a: Arena, dt: real, move: int, n: nat)
    requires Matches(g, a)
    ensures StepN(g, a, dt, move, n).field.score >= g.field.score
  {
    if n > 0 {
      StepNScore(g, a, dt, move, n - 1);
    }
  }

  /** Once cleared or over, a game stays exactly as it is, however many steps follow. */
  lemma {:induction false} StepNFinished(g: Game, a: Arena, dt: real, move: int, n: nat)
    requires Matches(g, a) && (g.field.cleared || g.gameOver)
    ensures StepN(g, a, dt, move, n) == g
  {
    if n > 0 {
      StepNFinished(g, a, dt, move, n - 1);
    }
  }

  class State {
    const Width: int
    const Height: int
    var Bricks: seq<seq<int>>     // [row][col] current HP
    const BrickMax: seq<seq<int>>   // [row][col] initial HP, for scoring
    var PaddleX: real
    const PaddleW: real
    const PaddleY: real
    var BallX: real
    var BallY: real
    var BallVX: real
    var BallVY: real
    var Score: int
    var BricksRemaining: int
    const BricksTotal: int
    var Cleared: bool
    var GameOver: bool
    /** The step length and move handed to each call of Step, in call order. */
    ghost var Trace: seq<(real, int)>

    function BallOf(): Ball
      reads this`BallX, this`BallY, this`BallVX, this`BallVY
    {
      Ball(BallX, BallY, BallVX, BallVY)
    }

    /**
     * The grids have the same shape, the counters count their live cells, and only an empty
     * field is cleared.
     */
    ghost predicate Valid()
      reads this`Bricks, this`BricksRemaining
      reads this`Cleared, this`Score
    {
      Counted(Bricks, BrickMax, BricksTotal, BricksRemaining, Cleared)
      && Sized(Width, Height, PaddleW, PaddleY) && Score >= 0
    }

    /** What NewState establishes for a grid, requested dimensions and a serve draw. */
    ghost predicate Initial(grid: BrickGrid, width: int, height: int, draw: real)
      requires Fits(grid) && 0.0 <= draw < 1.0
      reads this
    {
      && Height == Max(height, 10)
      && Width == Min(grid.cols * BrickW, Max(width, 10))
      && Bricks == HPMatrix(grid) && BrickMax == HPMatrix(grid)
      && BricksTotal == BricksRemaining == LiveCount(HPMatrix(grid))
      && Score == 0 && !Cleared && !GameOver
      && PaddleW == PaddleWidth(Width)
      && PaddleX == Width as real / 2.0 - PaddleW / 2.0
      && BallX == Width as real / 2.0 && BallY == PaddleY - 1.0
      && BallVX == ServeVX(draw) && BallVY == ServeVY
      && Trace == []
    }

    /** NewState: bricks copied from the grid's HP, paddle centred, ball served from above it. */
    constructor (grid: BrickGrid, width: int, height: int, draw: real)
      requires Fits(grid) && 0.0 <= draw < 1.0
      ensures Valid() && Initial(grid, width, height, draw)
    {
      var w := if width < 10 then 10 else width;
      var h := if height < 10 then 10 else height;
      var fieldW := grid.cols * 2;
      if fieldW > w {
        fieldW := w;
      }

      var bricks, remain := CopyHP(grid);

      var paddleW := PaddleWidth(fieldW);
      var paddleY := (h - 2) as real;
      Width, Height := fieldW, h;
      Bricks, BrickMax := bricks, bricks;
      PaddleW, PaddleY := paddleW, paddleY;
      PaddleX := fieldW as real / 2.0 - paddleW / 2.0;
      BallX, BallY, BallVX, BallVY := fieldW as real / 2.0, paddleY - 1.0, ServeVX(draw), ServeVY;
      Score, BricksRemaining, BricksTotal := 0, remain, remain;
      Cleared, GameOver := false, false;
      Trace := [];
    }

    /** Re-serves the ball from above the paddle; nothing but the ball changes. */
    method ResetBall(draw: real)
      requires Valid() && 0.0 <= draw < 1.0
      modifies this`BallX, this`BallY, this`BallVX, this`BallVY
      ensures Valid()
      ensures BallX == Width as real / 2.0 && BallY == PaddleY - 1.0
      ensures BallVX == ServeVX(draw) && BallVY == ServeVY
    {
      BallX := Width as real / 2.0;
      BallY := PaddleY - 1.0;
      BallVX := ServeVX(draw);
      BallVY := ServeVY;
    }

    /** Everything Step may change, as one value. */
    function GameOf(): Game
      reads this`PaddleX, this`Bricks, this`Score, this`BricksRemaining, this`Cleared
      reads this`BallX, this`BallY, this`BallVX, this`BallVY, this`GameOver
    {
      Game(PaddleX, Snapshot(), GameOver)
    }

    /** What Step leaves as it is, as one value. */
    function ArenaOf(): Arena
    {
      Arena(Width, Height, PaddleW, PaddleY, BrickMax)
    }

    /** The part of the state a brick collision involves. */
    function Snapshot(): Field
      reads this`Bricks, this`Score, this`BricksRemaining, this`Cleared
      reads this`BallX, this`BallY, this`BallVX, this`BallVY
    {
      Field(Bricks, Score, BricksRemaining, Cleared, BallOf())
    }

    /**
     * The live brick at (br, bc) is struck: it loses one HP, scores 10 times its initial HP
     * (at least 10), and the field is cleared when that was the last live brick.
     */
    method Strike(br: int, bc: int)
      requires Valid() && !Cleared
      requires HitsLive(Bricks, br, bc)
      modifies this`Bricks, this`Score, this`BricksRemaining, this`Cleared
      ensures Valid()
      ensures Bricks == Worn(old(Bricks), br, bc)
      ensures Score == old(Score) + 10 * Max(BrickMax[br][bc], 1)
      ensures BricksRemaining == old(BricksRemaining) - (if Bricks[br][bc] == 0 then 1 else 0)
      ensures Cleared == (Bricks[br][bc] == 0 && BricksRemaining <= 0)
    {
      var base := BrickMax[br][bc];
      if base < 1 {
        base := 1;
      }
      Score := Score + 10 * base;

      WornKeepsWornDown(Bricks, BrickMax, br, bc);
      Bricks := Worn(Bricks, br, bc);
      if Bricks[br][bc] == 0 {
        BricksRemaining := BricksRemaining - 1;
        if BricksRemaining <= 0 {
          Cleared := true;
        }
      }
    }

    /** The ball bounces off the brick at (br, bc), judged from where it was before the step. */
    method Bounce(br: int, bc: int, prevX: real, prevY: real)
      modifies this`BallX, this`BallY, this`BallVX, this`BallVY
      ensures BallOf() == BrickBounce(prevX, prevY, old(BallOf()), CellLeft(bc, BrickW), CellLeft(bc + 1, BrickW),
                                      CellTop(br, TopOffset))
    {
      var left := (bc * BrickW) as real;
      var right := ((bc + 1) * BrickW) as real;
      var top := (TopOffset + br) as real;
      var bounced := BrickBounce(prevX, prevY, Ball(BallX, BallY, BallVX, BallVY), left, right, top);
      BallX, BallY, BallVX, BallVY := bounced.x, bounced.y, bounced.vx, bounced.vy;
    }

    /**
     * Brick collision for the ball where it now is, having been at (prevX, prevY) before the
     * step.
     */
    method Collide(prevX: real, prevY: real)
      requires Valid() && !Cleared
      modifies this`Bricks, this`Score, this`BricksRemaining, this`Cleared
      modifies this`BallX, this`BallY, this`BallVX, this`BallVY
      ensures Valid()
      ensures Snapshot() == Collision(old(Snapshot()), BrickMax, prevX, prevY, TopOffset, BrickW)
    {
      var (br, bc) := CellOf(BallOf(), TopOffset, BrickW);
      if HitsLive(Bricks, br, bc) {
        Hit(br, bc, prevX, prevY);
      }
    }

    /** The ball has hit the live brick (br, bc) under it: the brick is struck and the ball bounced. */
    method Hit(br: int, bc: int, prevX: real, prevY: real)
      requires Valid() && !Cleared
      requires (br, bc) == CellOf(BallOf(), TopOffset, BrickW) && HitsLive(Bricks, br, bc)
      modifies this`Bricks, this`Score, this`BricksRemaining, this`Cleared
      modifies this`BallX, this`BallY, this`BallVX, this`BallVY
      ensures Valid()
      ensures Snapshot() == Collision(old(Snapshot()), BrickMax, prevX, prevY, TopOffset, BrickW)
    {
      CollisionOnHit(Snapshot(), BrickMax, prevX, prevY, TopOffset, BrickW);
      Strike(br, bc);
      Bounce(br, bc, prevX, prevY);
    }

    /** The paddle moves with the input, then the ball advances (walls, ceiling, paddle). */
    method Move(dt: real, input: Input)
      requires Valid()
      modifies this`PaddleX, this`BallX, this`BallY, this`BallVX, this`BallVY
      ensures PaddleX == MovePaddle(old(PaddleX), PaddleW, Width, input.move, dt)
      ensures BallOf() == Advance(old(BallOf()), dt, Width, TopWallY, PaddleX, PaddleW, PaddleY)
    {
      PaddleX := MovePaddle(PaddleX, PaddleW, Width, input.move, dt);
      var b := Advance(Ball(BallX, BallY, BallVX, BallVY), dt, Width, TopWallY, PaddleX, PaddleW, PaddleY);
      BallX, BallY, BallVX, BallVY := b.x, b.y, b.vx, b.vy;
    }

    /**
     * One physics step of length dt, recorded in Trace. A finished game (cleared or over) is
     * otherwise left as it is; else the step is played.
     */
    method Step(dt: real, input: Input)
      requires Valid()
      modifies this`PaddleX, this`BallX, this`BallY, this`BallVX, this`BallVY
      modifies this`Bricks, this`Score, this`BricksRemaining, this`Cleared, this`GameOver, this`Trace
      ensures Valid()
      ensures Trace == old(Trace) + [(dt, input.move)]
      ensures GameOf() == StepFn(old(GameOf()), ArenaOf(), dt, input.move)
      ensures old(Cleared || GameOver) ==>
        PaddleX == old(PaddleX) && GameOver == old(GameOver) && Snapshot() == old(Snapshot())
      ensures !old(Cleared || GameOver) ==>
        && PaddleX == MovePaddle(old(PaddleX), PaddleW, Width, input.move, dt)
        && Snapshot() == Collision(old(Snapshot()).(ball := Advance(old(BallOf()), dt, Width, TopWallY, PaddleX, PaddleW, PaddleY)),
                                   BrickMax, old(BallX), old(BallY), TopOffset, BrickW)
        && GameOver == (BallY > Height as real)
    {
      Trace := Trace + [(dt, input.move)];
      if Cleared || GameOver {
        return;
      }
      Play(dt, input);
    }

    /**
     * A step of a game still in play: the paddle moves, the ball advances (walls, ceiling,
     * paddle), collides with the brick under it, and the game is over once the ball is below
     * the field.
     */
    method Play(dt: real, input: Input)
      requires Valid() && !Cleared && !GameOver
      modifies this`PaddleX, this`BallX, this`BallY, this`BallVX, this`BallVY
      modifies this`Bricks, this`Score, this`BricksRemaining, this`Cleared, this`GameOver
      ensures Valid()
      ensures PaddleX == MovePaddle(old(PaddleX), PaddleW, Width, input.move, dt)
      ensures Snapshot() == Collision(old(Snapshot()).(ball := Advance(old(BallOf()), dt, Width, TopWallY, PaddleX, PaddleW, PaddleY)),
                                      BrickMax, old(BallX), old(BallY), TopOffset, BrickW)
      ensures GameOver == (BallY > Height as real)
    {
      var prevX, prevY := BallX, BallY;
      Move(dt, input);
      Collide(prevX, prevY);

      // Bottom: game over (missed the paddle).
      if BallY > Height as real {
        GameOver := true;
      }
    }
  }
}

=== FILE: errors.dfy ===
/**
 * Error classification for the data-fetch side (internal/github/errors.go).
 * A Go error value is modelled by the chain it forms through Unwrap: the two typed
 * errors of the package, an error made by fmt.Errorf with %w around another one, and a
 * plain error with a message and no cause. A nil `error` is `None`.
 */
module Errors {
  import opened Wrappers

  datatype AuthError = AuthError(message: string, cause: Option<Error>)

  datatype UserNotFoundError = UserNotFoundError(login: string, cause: Option<Error>)

  datatype Error =
    | Auth(auth: AuthError)                              // a non-nil *AuthError
    | NotFound(notFound: UserNotFoundError)              // a non-nil *UserNotFoundError
    | Wrapped(prefix: string, inner: Error, suffix: string)  // fmt.Errorf("prefix%wsuffix", inner)
    | Plain(text: string)                                // errors.New / fmt.Errorf without %w

  // ----- substring search and lower-casing (strings.Contains, strings.ToLower) -----

  /** `t` occurs in `s` starting at index i. */
  ghost predicate OccursAt(s: string, t: string, i: int)
  {
    0 <= i && i + |t| <= |s| && s[i..i + |t|] == t
  }

  function Contains(s: string, t: string): (b: bool)
    decreases |s|
  {
    (|t| <= |s| && s[..|t|] == t) || (|s| > 0 && Contains(s[1..], t))
  }

  lemma {:induction false} ContainsIff(s: string, t: string)
    ensures Contains(s, t) <==> exists i :: OccursAt(s, t, i)
    decreases |s|
  {
    if |t| <= |s| && s[..|t|] == t {
      assert OccursAt(s, t, 0);
    } else if |s| > 0 {
      ContainsIff(s[1..], t);
      if Contains(s[1..], t) {
        var i :| OccursAt(s[1..], t, i);
        assert s[1..][i..i + |t|] == s[i + 1..i + 1 + |t|];
        assert OccursAt(s, t, i + 1);
      } else {
        forall i | OccursAt(s, t, i) ensures false {
          assert i != 0;
          assert s[1..][i - 1..i - 1 + |t|] == s[i..i + |t|];
          assert OccursAt(s[1..], t, i - 1);
        }
      }
    }
  }

  lemma ContainsAt(s: string, t: string, i: int)
    requires OccursAt(s, t, i)
    ensures Contains(s, t)
  {
    ContainsIff(s, t);
  }

  /** Whatever contains t + u also contains t. */
  lemma {:induction false} ContainsPrefixOf(s: string, t: string, u: string)
    requires Contains(s, t + u)
    ensures Contains(s, t)
  {
    ContainsIff(s, t + u);
    var i :| OccursAt(s, t + u, i);
    assert s[i..i + |t|] == (t + u)[..|t|] == t;
    ContainsAt(s, t, i);
  }

  /**
   * unicode.ToLower on the characters where the answer is ASCII: the letters A-Z, the capital
   * I with dot above (U+0130) and the Kelvin sign (U+212A). Every other character is kept;
   * Go maps some of those to other non-ASCII letters, which no phrase test can tell apart
   * (AuthPhraseSeesOnlyAscii).
   */
  function LowerChar(c: char): (l: char)
    ensures IsAscii(l) <==> IsAscii(c) || c == '\U{0130}' || c == '\U{212A}'
    ensures !('A' <= l <= 'Z')
    ensures 'a' <= l <= 'z' ==> l == c || l as int == c as int + 32 || c == '\U{0130}' || c == '\U{212A}'
  {
    if 'A' <= c <= 'Z' then (c as int + 32) as char
    else if c == '\U{0130}' then 'i'
    else if c == '\U{212A}' then 'k'
    else c
  }

  predicate IsAscii(c: char)
  {
    c as int < 128
  }

  function ToLower(s: string): (r: string)
    ensures |r| == |s|
    ensures forall i :: 0 <= i < |s| ==> r[i] == LowerChar(s[i])
    ensures forall i :: 0 <= i < |r| ==> !('A' <= r[i] <= 'Z')
  {
    seq(|s|, i requires 0 <= i < |s| => LowerChar(s[i]))
  }

  /** Lower-casing twice is lower-casing once. */
  lemma LowerTwice(s: string)
    ensures ToLower(ToLower(s)) == ToLower(s)
  {
    forall i | 0 <= i < |s|
      ensures ToLower(ToLower(s))[i] == ToLower(s)[i]
    {
      var c := s[i];
      if 'A' <= c <= 'Z' {
        assert LowerChar(c) as int == c as int + 32;
      }
    }
  }

  predicate AsciiText(t: string)
  {
    forall k :: 0 <= k < |t| ==> IsAscii(t[k])
  }

  /** Two texts of one length whose characters are equal wherever either one is ASCII. */
  ghost predicate AsciiAgree(a: string, b: string)
  {
    |a| == |b| && forall i :: 0 <= i < |a| ==> a[i] == b[i] || (!IsAscii(a[i]) && !IsAscii(b[i]))
  }

  /** An ASCII pattern occurs in one of two ASCII-agreeing texts exactly when it occurs in the other. */
  lemma {:induction false} ContainsSeesOnlyAscii(a: string, b: string, t: string)
    requires AsciiAgree(a, b)
    requires AsciiText(t)
    ensures Contains(a, t) == Contains(b, t)
    decreases |a|
  {
    if |t| <= |a| {
      if a[..|t|] == t {
        assert forall k :: 0 <= k < |t| ==> b[k] == a[k] by {
          forall k | 0 <= k < |t| ensures b[k] == a[k] { assert a[k] == t[k]; }
        }
        assert b[..|t|] == t;
      }
      if b[..|t|] == t {
        assert forall k :: 0 <= k < |t| ==> a[k] == b[k] by {
          forall k | 0 <= k < |t| ensures a[k] == b[k] { assert b[k] == t[k]; }
        }
        assert a[..|t|] == t;
      }
    }
    if |a| > 0 {
      assert AsciiAgree(a[1..], b[1..]) by {
        forall i | 0 <= i < |a| - 1
          ensures a[1..][i] == b[1..][i] || (!IsAscii(a[1..][i]) && !IsAscii(b[1..][i]))
        {
          assert a[1..][i] == a[i + 1] && b[1..][i] == b[i + 1];
        }
      }
      ContainsSeesOnlyAscii(a[1..], b[1..], t);
    }
  }

  // ----- Error() and Unwrap() -----

  const AuthDefault: string := "authentication error"
  const NotFoundDefault: string := "user not found"

  /**
   * (*AuthError).Error(); `None` is a nil receiver. The text is the own message when there is
   * one, else the cause's text, else the default; it is empty only when both are empty.
   */
  function AuthErrorText(e: Option<AuthError>): (r: string)
    ensures e.None? ==> r == AuthDefault
    ensures e.Some? && e.value.message != "" ==> r == e.value.message
    ensures e.Some? && e.value.message == "" && e.value.cause.Some? ==> r == Text(e.value.cause.value)
    ensures e.Some? && e.value.message == "" && e.value.cause.None? ==> r == AuthDefault
    ensures r == "" ==> e.Some? && e.value.message == "" && e.value.cause.Some?
  {
    match e
    case None => AuthDefault
    case Some(a) => AuthText(a)
  }

  /** The text of a non-nil *AuthError. */
  function AuthText(a: AuthError): string
    decreases a
  {
    if a.message != "" then a.message
    else match a.cause
      case Some(c) => Text(c)
      case None => AuthDefault
  }

  /** (*UserNotFoundError).Error(); `None` is a nil receiver. */
  function UserNotFoundText(e: Option<UserNotFoundError>): (r: string)
    ensures r != ""
    ensures e.None? || e.value.login == "" ==> r == NotFoundDefault
    ensures e.Some? && e.value.login != "" ==> Contains(r, e.value.login)
  {
    match e
    case None => NotFoundDefault
    case Some(u) =>
      if u.login == "" then NotFoundDefault
      else
        var r := "user \"" + u.login + "\" not found";
        assert r[6..6 + |u.login|] == u.login;
        ContainsAt(r, u.login, 6);
        r
  }

  /** err.Error(): a %w wrapping keeps the wrapped error's text inside its own. */
  function Text(e: Error): (t: string)
    ensures e.Wrapped? ==> Contains(t, Text(e.inner))
    ensures e.NotFound? ==> t != ""
    decreases e
  {
    match e
    case Auth(a) => AuthText(a)
    case NotFound(u) => UserNotFoundText(Some(u))
    case Wrapped(p, inner, q) =>
      var t := p + Text(inner) + q;
      assert t[|p|..|p| + |Text(inner)|] == Text(inner);
      ContainsAt(t, Text(inner), |p|);
      t
    case Plain(t) => t
  }

  /** errors.Unwrap(err) */
  function Unwrap(e: Error): (r: Option<Error>)
    ensures r.Some? ==> r.value < e
  {
    match e
    case Auth(a) => a.cause
    case NotFound(u) => u.cause
    case Wrapped(_, inner, _) => Some(inner)
    case Plain(_) => None
  }

  /** The chain err, Unwrap(err), Unwrap(Unwrap(err)), ... down to the first nil. */
  function Chain(e: Error): (c: seq<Error>)
    ensures |c| >= 1 && c[0] == e
    decreases e
  {
    match Unwrap(e)
    case None => [e]
    case Some(next) => [e] + Chain(next)
  }

  // ----- classification -----

  /** errors.As(err, &ae) for ae of type *AuthError: some link of the chain is an AuthError. */
  function HasAuthError(e: Error): bool
    decreases e
  {
    e.Auth? || (Unwrap(e).Some? && HasAuthError(Unwrap(e).value))
  }

  /** errors.As(err, &e) for e of type *UserNotFoundError. */
  function HasUserNotFound(e: Error): bool
    decreases e
  {
    e.NotFound? || (Unwrap(e).Some? && HasUserNotFound(Unwrap(e).value))
  }

  /** The message tests IsAuthError applies to one lower-cased message. */
  predicate AuthPhrase(msg: string)
  {
    || (Contains(msg, "github_token") && Contains(msg, "not set"))
    || (Contains(msg, "gh_token") && Contains(msg, "not set"))
    || Contains(msg, "bad credentials")
    || Contains(msg, "authentication required")
    || Contains(msg, "requires authentication")
    || Contains(msg, "not authorized")
    || Contains(msg, "unauthorized")
    || Contains(msg, "forbidden")
    || Contains(msg, "gh auth login")
    || Contains(msg, "not logged in")
    || Contains(msg, "no oauth token")
    || (Contains(msg, "no token") && Contains(msg, "gh"))
  }

  /** The loop of IsAuthError over the unwrap chain. */
  function ChainHasAuthPhrase(e: Error): bool
    decreases e
  {
    AuthPhrase(ToLower(Text(e))) || (Unwrap(e).Some? && ChainHasAuthPhrase(Unwrap(e).value))
  }

  /** IsAuthError: nil never is one; an AuthError, or a message with an auth phrase, always is. */
  function IsAuthError(err: Option<Error>): (r: bool)
    ensures err.None? ==> !r
    ensures err.Some? && (err.value.Auth? || AuthPhrase(ToLower(Text(err.value)))) ==> r
  {
    match err
    case None => false
    case Some(e) => HasAuthError(e) || ChainHasAuthPhrase(e)
  }

  /** IsUserNotFound: nil never is one; a UserNotFoundError itself always is. */
  function IsUserNotFound(err: Option<Error>): (r: bool)
    ensures err.None? ==> !r
    ensures err.Some? && err.value.NotFound? ==> r
  {
    match err
    case None => false
    case Some(e) => HasUserNotFound(e)
  }

  const GraphQLNotFoundLong: string := "Could not resolve to a User with the login of"
  const GraphQLNotFound: string := "Could not resolve to a User"

  /** isGraphQLUserNotFound: nil never is one; a text with the short phrase always is. */
  function IsGraphQLUserNotFound(err: Option<Error>): (r: bool)
    ensures r ==> err.Some?
    ensures err.Some? && Contains(Text(err.value), GraphQLNotFound) ==> r
  {
    match err
    case None => false
    case Some(e) => Contains(Text(e), GraphQLNotFoundLong) || Contains(Text(e), GraphQLNotFound)
  }

  // ----- properties -----

  /** IsAuthError holds exactly when some link of the chain is an AuthError or has an auth phrase. */
  lemma {:induction false} IsAuthErrorByChain(e: Error)
    ensures IsAuthError(Some(e)) <==>
      exists i :: 0 <= i < |Chain(e)| && (Chain(e)[i].Auth? || AuthPhrase(ToLower(Text(Chain(e)[i]))))
    decreases e
  {
    match Unwrap(e)
    case None =>
    case Some(next) =>
      IsAuthErrorByChain(next);
      assert Chain(e) == [e] + Chain(next);
      if IsAuthError(Some(next)) {
        var i :| 0 <= i < |Chain(next)| && (Chain(next)[i].Auth? || AuthPhrase(ToLower(Text(Chain(next)[i]))));
        assert Chain(e)[i + 1] == Chain(next)[i];
      }
      if exists i :: 0 <= i < |Chain(e)| && (Chain(e)[i].Auth? || AuthPhrase(ToLower(Text(Chain(e)[i])))) {
        var i :| 0 <= i < |Chain(e)| && (Chain(e)[i].Auth? || AuthPhrase(ToLower(Text(Chain(e)[i]))));
        if i > 0 {
          assert Chain(next)[i - 1] == Chain(e)[i];
        }
      }
  }

  /** IsAuthError is false for nil and true for an AuthError below any number of wrappings. */
  lemma {:induction false} AuthErrorSurvivesWrapping(a: AuthError, wraps: seq<(string, string)>)
    ensures !IsAuthError(None)
    ensures IsAuthError(Some(WrapAll(Auth(a), wraps)))
    ensures HasAuthError(WrapAll(Auth(a), wraps))
    decreases |wraps|
  {
    if wraps != [] {
      AuthErrorSurvivesWrapping(a, wraps[1..]);
    }
  }

  /** IsUserNotFound is false for nil and true for a UserNotFoundError below any number of wrappings. */
  lemma {:induction false} UserNotFoundSurvivesWrapping(u: UserNotFoundError, wraps: seq<(string, string)>)
    ensures !IsUserNotFound(None)
    ensures IsUserNotFound(Some(WrapAll(NotFound(u), wraps)))
    decreases |wraps|
  {
    if wraps != [] {
      UserNotFoundSurvivesWrapping(u, wraps[1..]);
    }
  }

  /** `e` wrapped by fmt.Errorf once per element of `wraps`, the first element outermost. */
  function WrapAll(e: Error, wraps: seq<(string, string)>): Error
    decreases |wraps|
  {
    if wraps == [] then e
    else
      var inner := WrapAll(e, wraps[1..]);
      Wrapped(wraps[0].0, inner, wraps[0].1)
  }

  /** The first alternative of IsGraphQLUserNotFound adds nothing: the test is one substring search. */
  lemma GraphQLUserNotFoundIsShortPhrase(err: Option<Error>)
    ensures IsGraphQLUserNotFound(err) <==> (err.Some? && Contains(Text(err.value), GraphQLNotFound))
  {
    if err.Some? && Contains(Text(err.value), GraphQLNotFoundLong) {
      assert GraphQLNotFoundLong == GraphQLNotFound + " with the login of";
      ContainsPrefixOf(Text(err.value), GraphQLNotFound, " with the login of");
    }
  }

  /**
   * Every phrase is ASCII, so the phrase test cannot tell apart two texts that differ only in
   * non-ASCII characters; in particular lower-casing those (as Go does and LowerChar does not)
   * never changes the verdict.
   */
  lemma AuthPhraseSeesOnlyAscii(a: string, b: string)
    requires AsciiAgree(a, b)
    ensures AuthPhrase(a) == AuthPhrase(b)
  {
    PhrasesAreAscii();
    ContainsSeesOnlyAscii(a, b, "github_token");
    ContainsSeesOnlyAscii(a, b, "gh_token");
    ContainsSeesOnlyAscii(a, b, "not set");
    ContainsSeesOnlyAscii(a, b, "bad credentials");
    ContainsSeesOnlyAscii(a, b, "authentication required");
    ContainsSeesOnlyAscii(a, b, "requires authentication");
    ContainsSeesOnlyAscii(a, b, "not authorized");
    ContainsSeesOnlyAscii(a, b, "unauthorized");
    ContainsSeesOnlyAscii(a, b, "forbidden");
    ContainsSeesOnlyAscii(a, b, "gh auth login");
    ContainsSeesOnlyAscii(a, b, "not logged in");
    ContainsSeesOnlyAscii(a, b, "no oauth token");
    ContainsSeesOnlyAscii(a, b, "no token");
    ContainsSeesOnlyAscii(a, b, "gh");
  }

  lemma PhrasesAreAscii()
    ensures AsciiText("github_token") && AsciiText("gh_token") && AsciiText("not set")
    ensures AsciiText("bad credentials") && AsciiText("authentication required")
    ensures AsciiText("requires authentication") && AsciiText("not authorized")
    ensures AsciiText("unauthorized") && AsciiText("forbidden") && AsciiText("gh auth login")
    ensures AsciiText("not logged in") && AsciiText("no oauth token") && AsciiText("no token")
    ensures AsciiText("gh")
  {
  }

  /**
   * A plain error is classified the same whatever the letter case of its message: lowering
   * the message first, or switching the case of any of its letters, leaves the verdict as it was.
   */
  lemma AuthVerdictIgnoresCase(a: string, b: string)
    requires |a| == |b| && forall i :: 0 <= i < |a| ==> LowerChar(a[i]) == LowerChar(b[i])
    ensures IsAuthError(Some(Plain(a))) == IsAuthError(Some(Plain(b)))
    ensures IsAuthError(Some(Plain(ToLower(a)))) == IsAuthError(Some(Plain(a)))
  {
    assert ToLower(a) == ToLower(b);
    LowerTwice(a);
  }
}

=== FILE: gomath.dfy ===
/** Go's integer and float helpers whose meaning differs from Dafny's built-in operators. */
module GoMath {

  function Min(a: int, b: int): (r: int)
    ensures r <= a && r <= b && (r == a || r == b)
  {
    if a < b then a else b
  }

  function Max(a: int, b: int): (r: int)
    ensures r >= a && r >= b && (r == a || r == b)
  {
    if a < b then b else a
  }

  function Abs(x: real): (r: real)
    ensures r >= 0.0 && (r == x || r == -x)
  {
    if x < 0.0 then -x else x
  }

  /** Go's `a / b` on ints, which truncates toward zero (Dafny's `/` is Euclidean). */
  function Quo(a: int, b: int): (q: int)
    requires b > 0
    ensures a >= 0 ==> 0 <= a - b * q < b
    ensures a < 0 ==> -b < a - b * q <= 0
  {
    if a >= 0 then a / b else -((-a) / b)
  }

  /** Ceiling of a / b for a positive divisor. */
  function CeilDiv(a: int, b: int): (q: int)
    requires b > 0
    ensures b * (q - 1) < a <= b * q
  {
    CeilDivBounds(a, b);
    (a + b - 1) / b
  }

  lemma CeilDivBounds(a: int, b: int)
    requires b > 0
    ensures b * ((a + b - 1) / b - 1) < a <= b * ((a + b - 1) / b)
  {
    var q := (a + b - 1) / b;
    var m := (a + b - 1) % b;
    assert a + b - 1 == b * q + m && 0 <= m < b;
    assert b * (q - 1) == b * q - b;
  }

  /** Go's math.Mod for a non-negative dividend and a positive divisor. */
  function FMod(x: real, y: real): (r: real)
    requires x >= 0.0 && y > 0.0
    ensures 0.0 <= r < y
    ensures r <= x
    ensures ((x - r) / y).Floor as real == (x - r) / y
  {
    var k := (x / y).Floor;
    FloorQuotient(x, y);
    WholeMultiple(x, k, y);
    x - (k as real) * y
  }

  /** Taking k whole y's away from x leaves a difference that is a whole number of y's. */
  lemma WholeMultiple(x: real, k: int, y: real)
    requires y > 0.0
    ensures ((x - (x - k as real * y)) / y).Floor as real == (x - (x - k as real * y)) / y
  {
    assert x - (x - k as real * y) == k as real * y;
    assert (k as real * y) / y == k as real;
  }

  lemma FloorQuotient(x: real, y: real)
    requires x >= 0.0 && y > 0.0
    ensures (x / y).Floor >= 0
    ensures 0.0 <= x - ((x / y).Floor as real) * y < y
  {
    var q := x / y;
    var kr := q.Floor as real;
    assert kr <= q < kr + 1.0;
    assert q * y == x;
    var lo, hi := q - kr, kr + 1.0 - q;
    assert lo * y >= 0.0;
    assert hi * y > 0.0;
    assert lo * y == x - kr * y;
    assert hi * y == kr * y + y - x;
    assert x - kr * y < y;
  }
}

=== FILE: model.dfy ===
/**
 * The terminal UI's model (internal/tui/model.go): window sizing and rebuilding, the fixed
 * timestep scheduler driven by ticks, key handling, the column-reveal intro and the frame
 * pacing, on a class whose fields the handlers update in place. Wall-clock times are
 * seconds as reals; the serve draw of the engine, which Go takes from a generator seeded
 * with `seed`, is a parameter `draw` in [0, 1).
 */
module Tui {
  import opened GoMath
  import opened Wrappers
  import opened Contrib
  import opened Strength
  import opened Physics
  import opened BrickField
  import opened Engine
  import opened Canvas
  import opened Pacing

  /** A grid built from a calendar has the shape NewState reads. */
  lemma BuiltGridFits(cal: Calendar, maxCols: int, g: BrickGrid)
    requires IsBrickGrid(cal, maxCols, g)
    ensures Fits(g)
  {
    BrickGridSize(cal, maxCols, g);
  }

  /**
   * A grid without columns has no live brick, so a rebuild that finds bricks always has
   * columns to reveal.
   */
  lemma NoColumnsNoBricks(grid: BrickGrid)
    requires Fits(grid) && grid.cols == 0
    ensures LiveCount(HPMatrix(grid)) == 0
  {
    var m := HPMatrix(grid);
    EmptyRowsNoLive(m, |m|);
  }

  /**
   * For the bricks of a new game, rebuild's intro arming never takes its no-columns branch:
   * live bricks come with a first row of columns, so the intro's done flag is left as it was.
   */
  lemma ArmIntroKeepsDone(grid: BrickGrid, done: bool, noBricks: bool)
    requires Fits(grid)
    ensures var m := HPMatrix(grid);
      ArmIntro(done, noBricks, false, LiveCount(m), m).done == done
  {
    var m := HPMatrix(grid);
    if LiveCount(m) > 0 {
      if grid.cols == 0 {
        NoColumnsNoBricks(grid);
      }
      assert |m| > 0;
    }
  }

  lemma {:induction false} EmptyRowsNoLive(m: seq<seq<int>>, n: nat)
    requires n <= |m|
    requires forall r :: 0 <= r < |m| ==> |m[r]| == 0
    ensures LiveInRows(m, n) == 0
  {
    if n > 0 {
      EmptyRowsNoLive(m, n - 1);
      assert LiveRow(m[n - 1]) == LiveIn(m[n - 1], 0) == 0;
    }
  }

  // ----- the model -----

  class Model {
    var login: string
    var cal: Calendar
    var seed: int              // uint64
    var speed: real
    var lastTick: Option<real> // None is Go's zero time
    var acc: real
    var ready: bool
    var w: int
    var h: int
    var grid: BrickGrid
    var state: State?          // null until the first rebuild
    var move: int
    const overlayCanvas: CanvasBuf
    var intro: Intro
    var noBricks: bool

    ghost predicate Valid()
      reads this`speed, this`seed, this`acc, this`grid, this`ready, this`intro, this`state
      reads state, overlayCanvas
    {
      && Settled(speed, seed, acc) && Fits(grid)
      && (ready ==> state != null && state.Valid())
      && IntroShape(ready, intro)
      && overlayCanvas.Valid()
    }

    /** The simulation advances on ticks: built, intro over, bricks present, game not over. */
    predicate Running()
      reads this`ready, this`intro, this`noBricks, this`state, state
    {
      ready && !intro.active && !noBricks && state != null && !state.Cleared && !state.GameOver
    }

    /** NewModel. */
    constructor (login: string, cal: Calendar, seed: int, speed: real)
      requires 0 <= seed < Uint64Range
      ensures Valid()
      ensures this.login == login && this.cal == cal && this.seed == seed
      ensures this.speed == InitialSpeed(speed)
      ensures !ready && state == null && lastTick == None && acc == 0.0 && move == 0
      ensures intro == Intro(false, 0, 0, 0.0, 0.0, false) && !noBricks
    {
      this.login := login;
      this.cal := cal;
      this.seed := seed;
      this.speed := InitialSpeed(speed);
      lastTick := None;
      acc := 0.0;
      ready := false;
      w, h := 0, 0;
      grid := BrickGrid(0, 0, 0, []);
      state := null;
      move := 0;
      overlayCanvas := new CanvasBuf();
      intro := Intro(false, 0, 0, 0.0, 0.0, false);
      noBricks := false;
    }

    /** frameDuration: 60 frames a second while anything moves, fewer once the game has stopped. */
    function FrameDuration(): (d: int)
      requires ready ==> state != null
      reads this`ready, this`intro, this`noBricks, this`state, state
      ensures d == Second / 60 <==> !ready || intro.active || (!noBricks && !state.GameOver && !state.Cleared)
      ensures d == Second / 15 <==> ready && !intro.active && (noBricks || state.GameOver)
      ensures d == Second / 30 <==> ready && !intro.active && !noBricks && !state.GameOver && state.Cleared
    {
      if !ready then Second / 60
      else if intro.active then Second / 60
      else if noBricks then Second / 15
      else if state.GameOver then Second / 15
      else if state.Cleared then Second / 30
      else Second / 60
    }

    /** A window-size message: record the size and rebuild. */
    method WindowSize(width: int, height: int, draw: real)
      requires Valid() && 0.0 <= draw < 1.0
      modifies this`w, this`h, this`grid, this`state, this`noBricks, this`lastTick, this`acc, this`ready, this`intro
      modifies overlayCanvas
      ensures Valid() && ready && w == width && h == height
      ensures seed == old(seed) && speed == old(speed) && move == old(move)
      ensures IsBrickGrid(cal, MaxColsFor(width), grid)
      ensures fresh(state) && state.Initial(grid, GameWidth(width), GameHeight(height), draw)
      ensures noBricks == (state.BricksRemaining <= 0)
      ensures lastTick == None && acc == 0.0
      ensures overlayCanvas.w == 0 && overlayCanvas.h == 0
      ensures intro == ArmIntro(old(intro).done, noBricks, false, state.BricksRemaining, state.Bricks)
    {
      w, h := width, height;
      Rebuild(draw);
    }

    /**
     * rebuild: the grid is rebuilt for the window, a new game starts, the clock and the
     * budget are reset, and the intro is armed when it has not run yet and there are bricks.
     */
    method Rebuild(draw: real)
      requires Valid() && 0.0 <= draw < 1.0
      modifies this`grid, this`state, this`noBricks, this`lastTick, this`acc, this`ready, this`intro
      modifies overlayCanvas
      ensures Valid() && ready
      ensures w == old(w) && h == old(h) && seed == old(seed) && speed == old(speed) && move == old(move)
      ensures IsBrickGrid(cal, MaxColsFor(w), grid)
      ensures fresh(state) && state.Initial(grid, GameWidth(w), GameHeight(h), draw)
      ensures noBricks == (state.BricksRemaining <= 0)
      ensures lastTick == None && acc == 0.0
      ensures overlayCanvas.w == 0 && overlayCanvas.h == 0
      ensures intro == ArmIntro(old(intro).done, noBricks, false, state.BricksRemaining, state.Bricks)
    {
      var maxCols := MaxColsFor(w);
      var g := BuildBrickGrid(cal, maxCols);
      BuiltGridFits(cal, maxCols, g);
      grid := g;
      StartGame(draw);
    }

    /** The rest of rebuild, once the grid is built. */
    method StartGame(draw: real)
      requires Settled(speed, seed, acc) && Fits(grid) && IntroShape(ready, intro) && 0.0 <= draw < 1.0
      modifies this`state, this`noBricks, this`lastTick, this`acc, this`ready, this`intro, overlayCanvas
      ensures Valid() && ready
      ensures fresh(state) && state.Initial(grid, GameWidth(w), GameHeight(h), draw)
      ensures noBricks == (state.BricksRemaining <= 0)
      ensures lastTick == None && acc == 0.0
      ensures overlayCanvas.w == 0 && overlayCanvas.h == 0
      ensures intro == ArmIntro(old(intro).done, noBricks, false, state.BricksRemaining, state.Bricks)
    {
      var st := new State(grid, GameWidth(w), GameHeight(h), draw);
      overlayCanvas.Reset();
      state, noBricks, lastTick, acc, ready := st, st.BricksRemaining <= 0, None, 0.0, true;
      // The intro runs once per launch.
      intro := ArmIntro(intro.done, noBricks, state.Cleared, state.BricksRemaining, state.Bricks);
    }

    /** resetGame: a retry with the next seed (wrapping at 2^64) on the same grid and window. */
    method ResetGame(draw: real)
      requires Valid() && 0.0 <= draw < 1.0
      modifies this`seed, this`state, this`noBricks, this`lastTick, this`acc
      ensures Valid()
      ensures seed == (old(seed) + 1) % Uint64Range
      ensures grid == old(grid) && w == old(w) && h == old(h) && speed == old(speed)
      ensures fresh(state) && state.Initial(grid, GameWidth(w), GameHeight(h), draw)
      ensures noBricks == (state.BricksRemaining <= 0)
      ensures lastTick == None && acc == 0.0
      ensures ready == old(ready) && move == old(move) && intro == old(intro)
    {
      var st := new State(grid, GameWidth(w), GameHeight(h), draw);
      seed, state, noBricks, lastTick, acc := (seed + 1) % Uint64Range, st, st.BricksRemaining <= 0, None, 0.0;
    }

    /**
     * updateIntro: while the intro runs, dt accumulates and each whole step reveals one more
     * column; once every column is shown the intro ends for good. An intro without columns or
     * without a pace just ends.
     */
    method UpdateIntro(dt: real)
      modifies this`intro
      ensures IntroShape(ready, old(intro)) && dt >= 0.0 ==> IntroShape(ready, intro)
      ensures IntroAdvanced(ready, old(intro), intro, dt)
    {
      if !ready || !intro.active {
        return;
      }
      var i := intro;
      if i.totalCols <= 0 || i.step <= 0.0 {
        intro := i.(active := false, done := true);
        return;
      }
      var a := i.acc + dt;
      var visible := i.visibleCols;
      while a >= i.step && visible < i.totalCols
        invariant i.visibleCols <= visible
        invariant i.visibleCols <= i.totalCols ==> visible <= i.totalCols
        invariant i.visibleCols > i.totalCols ==> visible == i.visibleCols
        invariant a == i.acc + dt - ((visible - i.visibleCols) as real) * i.step
        invariant i.acc + dt >= 0.0 ==> a >= 0.0
        decreases i.totalCols - visible
      {
        a := a - i.step;
        visible := visible + 1;
      }
      if visible >= i.totalCols {
        intro := i.(acc := a, visibleCols := i.totalCols, active := false, done := true);
      } else {
        intro := i.(acc := a, visibleCols := visible);
      }
    }

    /**
     * The drain loop of a tick: while running, fixed steps are taken with the latched move as
     * long as a whole quantum is banked, at most 10 of them; a budget still too large after 10
     * is cut to its remainder modulo the quantum, and the latched move is cleared.
     */
    method Drain()
      requires Valid()
      modifies this`acc, this`move, state
      ensures Valid()
      ensures !old(Running()) ==> acc == old(acc) && move == old(move)
      ensures !old(Running()) && state != null ==> unchanged(state)
      ensures old(Running()) ==>
        && state.Trace == old(state.Trace) + Repeat((Fixed, old(move)), StepsDue(old(acc)))
        && state.GameOf() == StepN(old(state.GameOf()), state.ArenaOf(), Fixed, old(move), StepsDue(old(acc)))
        && 0.0 <= acc < Fixed
        && (StepsDue(old(acc)) < MaxStepsPerTick ==> acc == old(acc) - (StepsDue(old(acc)) as real) * Fixed)
        && (StepsDue(old(acc)) == MaxStepsPerTick ==> acc == FMod(old(acc) - (MaxStepsPerTick as real) * Fixed, Fixed))
        && move == 0
    {
      if !Running() {
        return;
      }
      var steps := RunSteps(state.GameOf(), state.Trace, acc);
      if steps >= MaxStepsPerTick {
        ghost var spent := acc;
        acc := FMod(acc, Fixed);
        assert spent == old(acc) - (MaxStepsPerTick as real) * Fixed;
        assert acc == FMod(old(acc) - (MaxStepsPerTick as real) * Fixed, Fixed);
      }
      move := 0;
    }

    /**
     * The drain after n of its steps from game g0, trace t0 and budget a0: n quanta taken
     * from the budget, n fixed steps with the latched move logged and played.
     */
    ghost predicate Draining(g0: Game, t0: seq<(real, int)>, a0: real, n: int)
      reads this`acc, this`move, this`state, state
    {
      && state != null && state.Valid() && 0 <= n <= MaxStepsPerTick
      && acc >= 0.0 && acc == a0 - (n as real) * Fixed
      && state.Trace == t0 + Repeat((Fixed, move), n)
      && Matches(g0, state.ArenaOf()) && state.GameOf() == StepN(g0, state.ArenaOf(), Fixed, move, n)
    }

    /** One iteration of the drain: a fixed step with the latched move, paid from the budget. */
    method StepOnce(ghost g0: Game, ghost t0: seq<(real, int)>, ghost a0: real, ghost n: int)
      requires Draining(g0, t0, a0, n) && acc >= Fixed && n < MaxStepsPerTick
      modifies this`acc, state
      ensures Draining(g0, t0, a0, n + 1)
    {
      state.Step(Fixed, Input(move));
      acc := acc - Fixed;
    }

    /**
     * The stepping loop of the drain: fixed steps with the latched move while a whole quantum
     * is banked, at most 10 of them, each taking one quantum from the budget.
     */
    method RunSteps(ghost g0: Game, ghost t0: seq<(real, int)>, ghost a0: real) returns (steps: int)
      requires Draining(g0, t0, a0, 0)
      modifies this`acc, state
      ensures Draining(g0, t0, a0, steps) && steps == StepsDue(a0)
    {
      steps := 0;
      while acc >= Fixed && steps < MaxStepsPerTick
        invariant Draining(g0, t0, a0, steps)
        decreases MaxStepsPerTick - steps
      {
        StepOnce(g0, t0, a0, steps);
        steps := steps + 1;
      }
    }

    /**
     * A tick at wall-clock time `now`. The first one after a (re)build only records the time.
     * Later ones clamp the elapsed time to [0, 0.05], advance the intro, bank dt*speed*1.25 of
     * game time (even while the game is not running) and drain it. The result is the delay
     * until the next tick.
     */
    method Tick(now: real) returns (next: int)
      requires Valid()
      modifies this`lastTick, this`intro, this`acc, this`move, state
      ensures Valid() && lastTick == Some(now)
      ensures next == FrameDuration()
      ensures old(lastTick).None? ==> acc == old(acc) && move == old(move) && intro == old(intro)
      ensures old(lastTick).None? && state != null ==> unchanged(state)
      ensures old(lastTick).Some? ==> IntroAdvanced(ready, old(intro), intro, TickDt(now - old(lastTick).value))
      ensures old(lastTick).Some? ==> old(intro).visibleCols <= intro.visibleCols && (old(intro).done ==> intro.done)
      ensures old(lastTick).Some? ==>
        var banked := Bank(old(acc), TickDt(now - old(lastTick).value), speed);
        var running := ready && !intro.active && !noBricks && !old(state.Cleared) && !old(state.GameOver);
        && (!running ==> acc == banked && move == old(move))
        && (!running && state != null ==> unchanged(state))
        && (running ==> state.Trace == old(state.Trace) + Repeat((Fixed, old(move)), StepsDue(banked)) && 0.0 <= acc < Fixed && move == 0)
        && (running ==>
                    && state.GameOf() == StepN(old(state.GameOf()), state.ArenaOf(), Fixed, old(move), StepsDue(banked)))
    {
      if lastTick.None? {
        lastTick := Some(now);
        next := FrameDuration();
        return;
      }

      var dt := TickDt(now - lastTick.value);
      lastTick := Some(now);
      Elapse(dt);
      next := FrameDuration();
    }

    /** The work of a tick after the first: advance the intro by dt, bank dt of play, drain. */
    method Elapse(dt: real)
      requires Valid() && 0.0 <= dt
      modifies this`intro, this`acc, this`move, state
      ensures Valid()
      ensures IntroAdvanced(ready, old(intro), intro, dt)
      ensures old(intro).visibleCols <= intro.visibleCols && (old(intro).done ==> intro.done)
      ensures
        var banked := Bank(old(acc), dt, speed);
        var running := ready && !intro.active && !noBricks && !old(state.Cleared) && !old(state.GameOver);
        && (!running ==> acc == banked && move == old(move))
        && (!running && state != null ==> unchanged(state))
        && (running ==> state.Trace == old(state.Trace) + Repeat((Fixed, old(move)), StepsDue(banked)) && 0.0 <= acc < Fixed && move == 0)
        && (running ==> state.GameOf() == StepN(old(state.GameOf()), state.ArenaOf(), Fixed, old(move), StepsDue(banked)))
    {
      UpdateIntro(dt);
      IntroAdvanceMonotone(ready, old(intro), intro, dt);
      acc := Bank(acc, dt, speed);
      Drain();
    }

    /**
     * A key press. "ctrl+c" and "q" quit; "r" retries once the intro is over; "+" and "-" change
     * the speed; the move keys latch a direction for the next tick, except during the intro.
     */
    method Key(key: string, draw: real) returns (quit: bool)
      requires Valid() && 0.0 <= draw < 1.0
      modifies this`speed, this`move, this`seed, this`state, this`noBricks, this`lastTick, this`acc
      ensures Valid()
      ensures quit <==> key == "ctrl+c" || key == "q"
      ensures (key == "r" || key == "R") && old(ready && !intro.active) ==>
        seed == (old(seed) + 1) % Uint64Range
        && fresh(state) && state.Initial(grid, GameWidth(w), GameHeight(h), draw)
        && noBricks == (state.BricksRemaining <= 0) && lastTick == None && acc == 0.0
      ensures !((key == "r" || key == "R") && old(ready && !intro.active)) ==>
        seed == old(seed) && state == old(state) && noBricks == old(noBricks)
        && acc == old(acc) && lastTick == old(lastTick)
      ensures speed == (if key == "+" || key == "=" then SpeedUp(old(speed))
                        else if key == "-" || key == "_" then SlowDown(old(speed))
                        else old(speed))
      ensures move == (if IsLeftKey(key) && !intro.active then -1
                       else if IsRightKey(key) && !intro.active then 1
                       else old(move))
      ensures intro == old(intro)
    {
      quit := false;
      if key == "ctrl+c" || key == "q" {
        quit := true;
      } else if key == "r" || key == "R" {
        if ready && !intro.active {
          ResetGame(draw);
        }
      } else if key == "+" || key == "=" {
        speed := SpeedUp(speed);
      } else if key == "-" || key == "_" {
        speed := SlowDown(speed);
      } else if IsLeftKey(key) {
        if !intro.active {
          move := -1;
        }
      } else if IsRightKey(key) {
        if !intro.active {
          move := 1;
        }
      }
    }
  }
}

=== FILE: pacing.dfy ===
/**
 * The pure rules of the terminal UI's scheduler (internal/tui/model.go): speed steps, tick
 * clamping, how many physics steps a time budget pays for, field sizing for a window, the
 * intro's pace, key classes, and the invariants the model keeps.
 */
module Pacing {
  import opened GoMath

  /** What "1.0x" speed means. */
  const BaseSpeedMultiplier: real := 1.25
  /** The physics step: 1/120 of a second of game time. */
  const Fixed: real := 1.0 / 120.0
  const MaxStepsPerTick: int := 10
  /** The longest tick taken into account, in seconds. */
  const MaxTickDt: real := 0.05
  /** time.Second, in nanoseconds. */
  const Second: int := 1_000_000_000
  /** Size of Go's uint64 range. */
  const Uint64Range: int := 0x1_0000_0000_0000_0000

  // ----- pure rules -----

  /** NewModel's speed: a non-positive request becomes 1. */
  function InitialSpeed(speed: real): (r: real)
    ensures r > 0.0
    ensures speed > 0.0 ==> r == speed
    ensures speed <= 0.0 ==> r == 1.0
  {
    if speed <= 0.0 then 1.0 else speed
  }

  /** The "+" key: 0.1 faster, capped at 5. */
  function SpeedUp(speed: real): (r: real)
    ensures r <= 5.0
    ensures speed > 0.0 ==> r > 0.0
    ensures speed + 0.1 <= 5.0 ==> r == speed + 0.1
  {
    var s := speed + 0.1;
    if s > 5.0 then 5.0 else s
  }

  /** The "-" key: 0.1 slower, floored at 0.25. */
  function SlowDown(speed: real): (r: real)
    ensures r >= 0.25
    ensures speed - 0.1 >= 0.25 ==> r == speed - 0.1
    ensures r <= speed || r == 0.25
  {
    var s := speed - 0.1;
    if s < 0.25 then 0.25 else s
  }

  /** The elapsed time a tick accounts for: negative gaps count as 0, long ones as 0.05. */
  function TickDt(elapsed: real): (dt: real)
    ensures 0.0 <= dt <= MaxTickDt
    ensures 0.0 <= elapsed <= MaxTickDt ==> dt == elapsed
    ensures elapsed < 0.0 ==> dt == 0.0
    ensures elapsed > MaxTickDt ==> dt == MaxTickDt
  {
    var d := if elapsed < 0.0 then 0.0 else elapsed;
    if d > MaxTickDt then MaxTickDt else d
  }

  /** The budget after a tick of dt seconds at a speed multiplier: dt*speed*1.25 more. */
  function Bank(acc: real, dt: real, speed: real): (a: real)
    ensures acc >= 0.0 && dt >= 0.0 && speed > 0.0 ==> a >= acc
  {
    acc + dt * (speed * BaseSpeedMultiplier)
  }

  /** Number of whole physics steps in a time budget. */
  function Quanta(a: real): int
  {
    (a * 120.0).Floor
  }

  /** How many steps a budget of acc seconds (at least 0) pays for in one tick. */
  function StepsDue(acc: real): (k: int)
    requires acc >= 0.0
    ensures 0 <= k <= MaxStepsPerTick
    ensures k < MaxStepsPerTick ==> (k as real) * Fixed <= acc < (k + 1) as real * Fixed
    ensures k == MaxStepsPerTick ==> acc >= (MaxStepsPerTick as real) * Fixed
  {
    Min(MaxStepsPerTick, Quanta(acc))
  }

  /** Maximum number of columns the calendar is compressed to for a window w wide. */
  function MaxColsFor(w: int): (c: int)
    ensures c >= 1
    ensures w >= 4 ==> c == (w - 2) / 2
  {
    Max(Quo(w - 2, 2), 1)
  }

  /** Game field width for a window w wide: two columns of padding, at least 10. */
  function GameWidth(w: int): (gw: int)
    ensures gw >= 10 && gw >= w - 2
    ensures w - 2 >= 10 ==> gw == w - 2
  {
    Max(w - 2, 10)
  }

  /** Game field height for a window h high: four rows for the HUD, at least 10. */
  function GameHeight(h: int): (gh: int)
    ensures gh >= 10 && gh >= h - 4
    ensures h - 4 >= 10 ==> gh == h - 4
  {
    Max(h - 4, 10)
  }

  /** Seconds per revealed column: about 1.1 s in total, each between 0.01 and 0.08. */
  function IntroStep(cols: int): (step: real)
    requires cols > 0
    ensures 0.01 <= step <= 0.08
    ensures 0.01 <= 1.1 / (cols as real) <= 0.08 ==> step == 1.1 / (cols as real)
  {
    var s := 1.1 / (cols as real);
    if s < 0.01 then 0.01 else if s > 0.08 then 0.08 else s
  }

  /** What n physics steps receive when each is handed the same step length and latched move. */
  function Repeat<T>(x: T, n: nat): (s: seq<T>)
    ensures |s| == n && forall i :: 0 <= i < n ==> s[i] == x
  {
    if n == 0 then [] else Repeat(x, n - 1) + [x]
  }

  predicate IsLeftKey(key: string)
  {
    key == "left" || key == "h" || key == "a" || key == "H" || key == "A"
  }

  predicate IsRightKey(key: string)
  {
    key == "right" || key == "l" || key == "d" || key == "L" || key == "D"
  }

  /** The scheduler's numbers: positive speed, a uint64 seed, a non-negative budget. */
  ghost predicate Settled(speed: real, seed: int, acc: real)
  {
    speed > 0.0 && 0 <= seed < Uint64Range && acc >= 0.0
  }

  /**
   * The intro shows at most all columns, has banked no negative time, and while it runs it
   * has a column left and a pace.
   */
  ghost predicate IntroShape(ready: bool, i: Intro)
  {
    && 0 <= i.visibleCols <= i.totalCols && 0.0 <= i.acc
    && (i.active ==> ready && i.visibleCols < i.totalCols && i.step >= 0.01)
  }

  // ----- the column-reveal intro -----

  /**
   * The intro's fields (introActive, introTotalCols, introVisibleCols, introAcc, introStep,
   * introDone): whether it runs, how many columns it reveals and has revealed, the seconds
   * banked toward the next column, the seconds per column, and whether it has run already.
   */
  datatype Intro = Intro(active: bool, totalCols: int, visibleCols: int, acc: real, step: real, done: bool)

  /**
   * updateIntro's effect of dt seconds on intro i, giving o: nothing unless built and active;
   * an intro without columns or pace just ends; otherwise each whole step of the banked time
   * reveals one more column, the bank keeps the time not spent (below a step while columns
   * remain), and the intro ends, done, exactly when every column shows.
   */
  ghost predicate IntroAdvanced(ready: bool, i: Intro, o: Intro, dt: real)
  {
    && (!(ready && i.active) ==> o == i)
    && (ready && i.active && (i.totalCols <= 0 || i.step <= 0.0) ==> o == i.(active := false, done := true))
    && (ready && i.active && i.totalCols > 0 && i.step > 0.0 ==>
          var first := Min(i.visibleCols, i.totalCols);
          && o.totalCols == i.totalCols && o.step == i.step
          && first <= o.visibleCols <= i.totalCols
          && o.acc == i.acc + dt - ((o.visibleCols - first) as real) * i.step
          && (o.visibleCols < i.totalCols ==> o.acc < i.step)
          && (i.acc + dt >= 0.0 ==> o.acc >= 0.0)
          && o.active == (o.visibleCols < i.totalCols)
          && o.done == (i.done || o.visibleCols == i.totalCols))
  }

  /** Advancing an intro in shape never hides a column and never undoes done; an ended intro stays ended. */
  lemma IntroAdvanceMonotone(ready: bool, i: Intro, o: Intro, dt: real)
    requires IntroShape(ready, i) && IntroAdvanced(ready, i, o, dt) && dt >= 0.0
    ensures i.visibleCols <= o.visibleCols && (i.done ==> o.done)
    ensures !i.active ==> o == i
    ensures IntroShape(ready, o)
  {
  }

  /**
   * What rebuild leaves in the intro fields: everything cleared, then, when the intro has not
   * run yet and the new game has live bricks, either armed for the first row's columns or,
   * with no columns at all, marked done.
   */
  function ArmIntro(done: bool, noBricks: bool, cleared: bool, remaining: int, bricks: seq<seq<int>>): (i: Intro)
    ensures i.visibleCols == 0 && i.acc == 0.0
    ensures i.active <==> !done && !noBricks && !cleared && remaining > 0 && |bricks| > 0 && |bricks[0]| > 0
    ensures i.active ==> i.totalCols == |bricks[0]| && i.step == IntroStep(|bricks[0]|)
    ensures !i.active ==> i.totalCols == 0 && i.step == 0.0
    ensures i.done <==> done || (!noBricks && !cleared && remaining > 0 && (|bricks| == 0 || |bricks[0]| == 0))
    ensures IntroShape(true, i)
  {
    var cols := if |bricks| > 0 then |bricks[0]| else 0;
    if !done && !noBricks && !cleared && remaining > 0 then
      if cols > 0 then Intro(true, cols, 0, 0.0, IntroStep(cols), false)
      else Intro(false, 0, 0, 0.0, 0.0, true)
    else Intro(false, 0, 0, 0.0, 0.0, done)
  }
}

=== FILE: physics.dfy ===
/**
 * The pieces of one engine step (internal/game/engine.go) as pure functions on a ball.
 * Positions and velocities are reals: an idealisation of float64 without rounding. The
 * pseudo-random serve is a parameter `draw`, the value rng.Float64() returned, in [0, 1).
 */
module Physics {
  import opened GoMath

  /** The player's input for one step: -1 left, 0 none, +1 right. */
  datatype Input = Input(move: int)

  datatype Ball = Ball(x: real, y: real, vx: real, vy: real)

  const PaddleSpeed: real := 70.0
  const ServeVY: real := -18.0
  const MaxVX: real := 30.0
  const Deflection: real := 12.0
  const Eps: real := 0.01

  // ----- pieces of one step, as pure functions -----

  /** The horizontal serve velocity drawn from `draw`: (draw*2-1)*10, with 0 replaced by 6. */
  function ServeVX(draw: real): (vx: real)
    requires 0.0 <= draw < 1.0
    ensures vx != 0.0 && -10.0 <= vx < 10.0
    ensures (draw * 2.0 - 1.0) * 10.0 != 0.0 ==> vx == (draw * 2.0 - 1.0) * 10.0
  {
    var v := (draw * 2.0 - 1.0) * 10.0;
    if v == 0.0 then 6.0 else v
  }

  /** NewState's paddle width for a field fieldW wide: a fifth of the field, at least 6. */
  function PaddleWidth(fieldW: int): (w: real)
    ensures w >= 6.0 && w >= fieldW as real / 5.0
    ensures w == 6.0 || w == fieldW as real / 5.0
  {
    var fifth := fieldW as real / 5.0;
    if fifth > 6.0 then fifth else 6.0
  }

  /** The paddle after moving for dt, clamped first at the left wall and then at the right one. */
  function MovePaddle(x: real, w: real, width: int, move: int, dt: real): (p: real)
    ensures p + w <= width as real
    ensures w <= width as real ==> 0.0 <= p
    ensures var t := x + (move as real) * PaddleSpeed * dt;
      0.0 <= t && t + w <= width as real ==> p == t
  {
    var t := x + (move as real) * PaddleSpeed * dt;
    var a := if t < 0.0 then 0.0 else t;
    if a + w > width as real then width as real - w else a
  }

  /** Side walls: a ball outside [0, width-1] is put back on the wall and sent inwards. */
  function Walls(b: Ball, width: int): (r: Ball)
    ensures r.y == b.y && r.vy == b.vy && Abs(r.vx) == Abs(b.vx)
    ensures width >= 1 ==> 0.0 <= r.x <= (width - 1) as real
    ensures b.x < 0.0 ==> r.vx >= 0.0
    ensures 0.0 <= b.x && b.x > (width - 1) as real ==> r.vx <= 0.0
    ensures 0.0 <= b.x <= (width - 1) as real ==> r == b
  {
    if b.x < 0.0 then b.(x := 0.0, vx := Abs(b.vx))
    else if b.x > (width - 1) as real then b.(x := (width - 1) as real, vx := -Abs(b.vx))
    else b
  }

  /** The one-way ceiling at row topWall: it only stops upward motion. */
  function Ceiling(b: Ball, topWall: int): (r: Ball)
    ensures r.x == b.x && r.vx == b.vx && Abs(r.vy) == Abs(b.vy)
    ensures r.y >= topWall as real
    ensures b.y < topWall as real ==> r.vy >= 0.0
    ensures b.y >= topWall as real ==> r == b
  {
    if b.y < topWall as real then b.(y := topWall as real, vy := Abs(b.vy)) else b
  }

  /** The ball, moving down, is within 0.2 of the paddle's top edge and over the paddle. */
  predicate PaddleHit(b: Ball, px: real, pw: real, py: real)
  {
    var top := py - 0.5;
    b.y >= top - 0.2 && b.y <= top + 0.2 && b.x >= px && b.x <= px + pw && b.vy > 0.0
  }

  function Clamp30(v: real): (r: real)
    ensures -MaxVX <= r <= MaxVX
    ensures -MaxVX <= v <= MaxVX ==> r == v
  {
    if v > MaxVX then MaxVX else if v < -MaxVX then -MaxVX else v
  }

  lemma Clamp30Mono(a: real, b: real)
    requires a <= b
    ensures Clamp30(a) <= Clamp30(b)
  {
  }

  /** Offset of the hit from the paddle centre, scaled to the half-width. */
  function HitOffset(x: real, px: real, pw: real): (rel: real)
    requires pw > 0.0
    ensures px <= x <= px + pw ==> -1.0 <= rel <= 1.0
    ensures x >= px + pw / 2.0 ==> rel >= 0.0
    ensures x <= px + pw / 2.0 ==> rel <= 0.0
  {
    var h := pw / 2.0;
    OffsetBounds(x - (px + h), h);
    (x - (px + h)) / h
  }

  /** d / h lies in [-1, 1] when d does in [-h, h], and has the sign of d. */
  lemma OffsetBounds(d: real, h: real)
    requires h > 0.0
    ensures -h <= d <= h ==> -1.0 <= d / h <= 1.0
    ensures d >= 0.0 ==> d / h >= 0.0
    ensures d <= 0.0 ==> d / h <= 0.0
  {
    var rel := d / h;
    assert rel * h == d;
    if rel > 1.0 { assert (rel - 1.0) * h > 0.0; }
    if rel < -1.0 { assert (-1.0 - rel) * h > 0.0; }
    if rel < 0.0 { assert (-rel) * h > 0.0; }
    if rel > 0.0 { assert rel * h > 0.0; }
  }

  /**
   * A paddle hit sends the ball up and deflects it by up to 12 towards the side of the
   * paddle it struck, keeping the horizontal speed within 30.
   */
  function PaddleBounce(b: Ball, px: real, pw: real, py: real): (r: Ball)
    requires pw > 0.0
    ensures !PaddleHit(b, px, pw, py) ==> r == b
    ensures PaddleHit(b, px, pw, py) ==>
      && r.x == b.x && r.y == b.y && r.vy == -b.vy && r.vy < 0.0
      && -MaxVX <= r.vx <= MaxVX
      && Clamp30(b.vx - Deflection) <= r.vx <= Clamp30(b.vx + Deflection)
      && (b.x >= px + pw / 2.0 ==> r.vx >= Clamp30(b.vx))
      && (b.x <= px + pw / 2.0 ==> r.vx <= Clamp30(b.vx))
  {
    if PaddleHit(b, px, pw, py) then
      var rel := HitOffset(b.x, px, pw);
      DeflectionBounds(b.vx, rel);
      b.(vy := -Abs(b.vy), vx := Clamp30(b.vx + rel * Deflection))
    else b
  }

  /** A deflection by rel in [-1, 1] stays within 12 of the clamped velocity, on rel's side. */
  lemma DeflectionBounds(vx: real, rel: real)
    requires -1.0 <= rel <= 1.0
    ensures Clamp30(vx - Deflection) <= Clamp30(vx + rel * Deflection) <= Clamp30(vx + Deflection)
    ensures rel >= 0.0 ==> Clamp30(vx) <= Clamp30(vx + rel * Deflection)
    ensures rel <= 0.0 ==> Clamp30(vx + rel * Deflection) <= Clamp30(vx)
  {
    Clamp30Mono(vx - Deflection, vx + rel * Deflection);
    Clamp30Mono(vx + rel * Deflection, vx + Deflection);
    if rel >= 0.0 { Clamp30Mono(vx, vx + rel * Deflection); }
    if rel <= 0.0 { Clamp30Mono(vx + rel * Deflection, vx); }
  }

  /**
   * Integration over dt followed by walls, ceiling and paddle: where the ball is before
   * any brick is considered.
   */
  function Advance(b: Ball, dt: real, width: int, topWall: int, px: real, pw: real, py: real): (r: Ball)
    requires pw > 0.0
    ensures width >= 1 ==> 0.0 <= r.x <= (width - 1) as real
    ensures r.y >= topWall as real
    ensures Abs(r.vy) == Abs(b.vy)
    ensures -MaxVX <= b.vx <= MaxVX ==> -MaxVX <= r.vx <= MaxVX
  {
    var moved := Ball(b.x + b.vx * dt, b.y + b.vy * dt, b.vx, b.vy);
    PaddleBounce(Ceiling(Walls(moved, width), topWall), px, pw, py)
  }

  /**
   * The bounce off a struck brick with left/right/top edges given, decided by where the ball
   * was before the step: entered from the left, right, top or bottom, in that priority, it is
   * put just outside that side and sent back; otherwise only its vertical velocity flips.
   */
  function BrickBounce(prevX: real, prevY: real, b: Ball, left: real, right: real, top: real): (r: Ball)
    ensures Abs(r.vx) == Abs(b.vx) && Abs(r.vy) == Abs(b.vy)
    ensures (r.x == b.x && r.vx == b.vx) || (r.y == b.y && r.vy == b.vy)
    ensures prevX < left <= b.x ==> r.x < left && r.vx <= 0.0 && r.y == b.y
    ensures !(prevX < left <= b.x) && b.x < right <= prevX ==> r.x > right && r.vx >= 0.0 && r.y == b.y
    ensures !(prevX < left <= b.x) && !(b.x < right <= prevX) && prevY < top <= b.y ==>
      r.y < top && r.vy <= 0.0 && r.x == b.x
    ensures (!(prevX < left <= b.x) && !(b.x < right <= prevX) && !(prevY < top <= b.y)
             && b.y < top + 1.0 <= prevY) ==> r.y > top + 1.0 && r.vy >= 0.0 && r.x == b.x
    ensures (!(prevX < left <= b.x) && !(b.x < right <= prevX) && !(prevY < top <= b.y)
             && !(b.y < top + 1.0 <= prevY)) ==> r == b.(vy := -b.vy)
  {
    var bottom := top + 1.0;
    if prevX < left && b.x >= left then b.(x := left - Eps, vx := -Abs(b.vx))
    else if prevX >= right && b.x < right then b.(x := right + Eps, vx := Abs(b.vx))
    else if prevY < top && b.y >= top then b.(y := top - Eps, vy := -Abs(b.vy))
    else if prevY >= bottom && b.y < bottom then b.(y := bottom + Eps, vy := Abs(b.vy))
    else b.(vy := -b.vy)
  }

  /** The field is at least 10 high with the paddle on row height-2, at least 6 wide. */
  ghost predicate Sized(width: int, height: int, paddleW: real, paddleY: real)
  {
    0 <= width && height >= 10 && paddleW >= 6.0 && paddleY == (height - 2) as real
  }
}

=== FILE: strength.dfy ===
/**
 * The brick-grid builder (internal/mapping/strength.go): a calendar of N weeks x 7
 * weekdays is compressed into 7 rows of at most maxCols columns; each cell keeps the
 * per-weekday maximum count of the weeks it covers and gets hit points 0..4.
 */
module Strength {
  import opened GoMath
  import opened Contrib

  const DaysPerWeek: int := 7

  datatype BrickCell = BrickCell(count: int, hp: int)

  /** Rows are weekdays 0..6 (Sunday first); cells[row][col]. */
  datatype BrickGrid = BrickGrid(rows: int, cols: int, maxCount: int, cells: seq<seq<BrickCell>>)

  // ----- multiplication and division facts -----

  lemma MulMono(m: int, a: int, b: int)
    requires m >= 0 && a <= b
    ensures m * a <= m * b
  {
    var d := b - a;
    assert m * b == m * a + m * d;
  }

  lemma MulCancelStrict(m: int, a: int, b: int)
    requires m > 0 && m * a < m * b
    ensures a < b
  {
    if a >= b { MulMono(m, b, a); }
  }

  /** q is a / n exactly when q * n <= a < (q + 1) * n. */
  lemma DivIs(a: int, n: int, q: int)
    requires n > 0 && n * q <= a < n * q + n
    ensures a / n == q
  {
    var k := a / n;
    assert a == n * k + a % n && 0 <= a % n < n;
    assert n * k < n * (q + 1);
    assert n * q < n * (k + 1);
    MulCancelStrict(n, k, q + 1);
    MulCancelStrict(n, q, k + 1);
  }

  lemma DivMono(a: int, b: int, n: int)
    requires n > 0 && a <= b
    ensures a / n <= b / n
  {
    var ka, kb := a / n, b / n;
    assert a == n * ka + a % n && b == n * kb + b % n;
    if ka > kb {
      MulMono(n, kb + 1, ka);
      assert false;
    }
  }

  // ----- hit points -----

  /**
   * HP of a cell: 0 for no contributions, 1 when there is no positive maximum, and otherwise
   * ceil(4 * count / maxCount) clamped to 1..4.
   */
  function HPFromCount(count: int, maxCount: int): (hp: int)
    ensures 0 <= hp <= 4
    ensures hp == 0 <==> count <= 0
    ensures count > 0 && maxCount <= 0 ==> hp == 1
    ensures 0 < count <= maxCount ==> maxCount * (hp - 1) < 4 * count <= maxCount * hp
    ensures 0 < maxCount <= count ==> hp == 4
  {
    if count <= 0 then 0
    else if maxCount <= 0 then 1
    else
      var q := CeilDiv(4 * count, maxCount);
      HPCeilFacts(count, maxCount, q);
      Min(Max(q, 1), 4)
  }

  lemma HPCeilFacts(count: int, maxCount: int, q: int)
    requires count > 0 && maxCount > 0
    requires maxCount * (q - 1) < 4 * count <= maxCount * q
    ensures q >= 1
    ensures count <= maxCount ==> q <= 4
    ensures maxCount <= count ==> q >= 4
  {
    MulCancelStrict(maxCount, 0, q);
    if count <= maxCount {
      MulCancelStrict(maxCount, q - 1, 4);
    }
    if maxCount <= count {
      MulCancelStrict(maxCount, 3, q);
    }
  }

  /** For a fixed positive maximum, HP never decreases as the count grows. */
  lemma HPMonotone(c1: int, c2: int, maxCount: int)
    requires c1 <= c2
    ensures HPFromCount(c1, maxCount) <= HPFromCount(c2, maxCount)
  {
    if c1 > 0 && maxCount > 0 {
      var q1, q2 := CeilDiv(4 * c1, maxCount), CeilDiv(4 * c2, maxCount);
      MulCancelStrict(maxCount, q1 - 1, q2);
    }
  }

  /** A few values of the formula: a full-strength day, a weak day, an empty day, a middling day. */
  lemma HPExamples()
    ensures HPFromCount(5, 5) == 4 && HPFromCount(1, 10) == 1
    ensures HPFromCount(0, 10) == 0 && HPFromCount(3, 10) == 2
  {
    assert CeilDiv(12, 10) == 2;
  }

  // ----- week to column -----

  /** Week wi of n goes to column wi * cols / n (Go's truncation equals Dafny's division here). */
  function ColumnOf(wi: int, cols: int, n: int): int
    requires n > 0
  {
    wi * cols / n
  }

  lemma ColumnInRange(wi: int, cols: int, n: int)
    requires 0 <= wi < n && 0 < cols
    ensures 0 <= ColumnOf(wi, cols, n) < cols
  {
    MulMono(cols, 0, wi);
    var q := ColumnOf(wi, cols, n);
    if q >= cols {
      assert wi * cols == n * q + (wi * cols) % n;
      MulMono(n, cols, q);
      MulMono(cols, wi, n - 1);
      assert false;
    }
  }

  lemma ColumnMonotone(w1: int, w2: int, cols: int, n: int)
    requires 0 <= w1 <= w2 && 0 <= cols && n > 0
    ensures ColumnOf(w1, cols, n) <= ColumnOf(w2, cols, n)
  {
    MulMono(cols, w1, w2);
    DivMono(w1 * cols, w2 * cols, n);
  }

  /** With no more columns than weeks, every column receives at least one week. */
  lemma ColumnSurjective(c: int, cols: int, n: int) returns (wi: int)
    requires 0 <= c < cols <= n
    ensures 0 <= wi < n && ColumnOf(wi, cols, n) == c
  {
    wi := CeilDiv(c * n, cols);
    // c * n <= cols * wi < c * n + cols <= (c + 1) * n <= cols * n
    MulMono(n, 0, c);
    MulCancelStrict(cols, -1, wi);
    assert cols * wi < c * n + cols;
    MulMono(n, c + 1, cols);
    MulCancelStrict(cols, wi, n);
    DivIs(wi * cols, n, c);
  }

  // ----- per-cell counts -----

  /** Folding one day into a running cell value, as the builder's inner loop does. */
  function Absorb(cur: int, d: Day, r: int): int
  {
    if d.weekday == r && d.contributionCount > cur then d.contributionCount else cur
  }

  function FoldDays(acc: int, days: seq<Day>, r: int): int
    decreases |days|
  {
    if days == [] then acc else Absorb(FoldDays(acc, days[..|days| - 1], r), days[|days| - 1], r)
  }

  /** The count of cell (r, c) after the first k weeks have been folded in. */
  function CellCount(weeks: seq<Week>, k: nat, cols: int, r: int, c: int): int
    requires k <= |weeks|
  {
    if k == 0 then 0
    else
      var prev := CellCount(weeks, k - 1, cols, r, c);
      if ColumnOf(k - 1, cols, |weeks|) == c then FoldDays(prev, weeks[k - 1].contributionDays, r)
      else prev
  }

  /** Day j of week wi feeds cell (r, c). */
  ghost predicate Feeds(weeks: seq<Week>, k: nat, cols: int, r: int, c: int, wi: int, j: int)
    requires k <= |weeks|
  {
    0 <= wi < k && 0 <= j < |weeks[wi].contributionDays|
    && ColumnOf(wi, cols, |weeks|) == c && weeks[wi].contributionDays[j].weekday == r
  }

  lemma {:induction false} FoldDaysIsMax(acc: int, days: seq<Day>, r: int)
    ensures FoldDays(acc, days, r) >= acc
    ensures forall j :: 0 <= j < |days| && days[j].weekday == r ==> days[j].contributionCount <= FoldDays(acc, days, r)
    ensures FoldDays(acc, days, r) == acc
      || exists j :: 0 <= j < |days| && days[j].weekday == r && days[j].contributionCount == FoldDays(acc, days, r)
    decreases |days|
  {
    if days != [] {
      var init := days[..|days| - 1];
      FoldDaysIsMax(acc, init, r);
      var prev := FoldDays(acc, init, r);
      if FoldDays(acc, days, r) != prev {
        assert days[|days| - 1].contributionCount == FoldDays(acc, days, r);
      } else if prev != acc {
        var j :| 0 <= j < |init| && init[j].weekday == r && init[j].contributionCount == prev;
        assert days[j] == init[j];
      }
      forall j | 0 <= j < |days| && days[j].weekday == r
        ensures days[j].contributionCount <= FoldDays(acc, days, r)
      {
        if j < |days| - 1 { assert days[j] == init[j]; }
      }
    }
  }

  /**
   * A cell's count is the maximum of 0 and the counts of all days that feed it: days
   * with that weekday in weeks mapped to that column. Other weekdays, including ones
   * outside 0..6, never contribute.
   */
  lemma {:induction false} CellCountIsMax(weeks: seq<Week>, k: nat, cols: int, r: int, c: int)
    requires k <= |weeks|
    ensures CellCount(weeks, k, cols, r, c) >= 0
    ensures forall wi, j :: Feeds(weeks, k, cols, r, c, wi, j) ==>
      weeks[wi].contributionDays[j].contributionCount <= CellCount(weeks, k, cols, r, c)
    ensures CellCount(weeks, k, cols, r, c) == 0 || exists wi, j ::
      Feeds(weeks, k, cols, r, c, wi, j) && weeks[wi].contributionDays[j].contributionCount == CellCount(weeks, k, cols, r, c)
  {
    if k > 0 {
      CellCountIsMax(weeks, k - 1, cols, r, c);
      var prev := CellCount(weeks, k - 1, cols, r, c);
      var cur := CellCount(weeks, k, cols, r, c);
      var days := weeks[k - 1].contributionDays;
      if ColumnOf(k - 1, cols, |weeks|) == c {
        FoldDaysIsMax(prev, days, r);
        if cur != prev {
          var j :| 0 <= j < |days| && days[j].weekday == r && days[j].contributionCount == cur;
          assert Feeds(weeks, k, cols, r, c, k - 1, j);
        } else if prev != 0 {
          var wi, j :| Feeds(weeks, k - 1, cols, r, c, wi, j) && weeks[wi].contributionDays[j].contributionCount == prev;
          assert Feeds(weeks, k, cols, r, c, wi, j);
        }
      } else if prev != 0 {
        var wi, j :| Feeds(weeks, k - 1, cols, r, c, wi, j) && weeks[wi].contributionDays[j].contributionCount == prev;
        assert Feeds(weeks, k, cols, r, c, wi, j);
      }
      forall wi, j | Feeds(weeks, k, cols, r, c, wi, j)
        ensures weeks[wi].contributionDays[j].contributionCount <= cur
      {
        if wi < k - 1 { assert Feeds(weeks, k - 1, cols, r, c, wi, j); }
      }
    }
  }

  // ----- the grid -----

  /** Seven rows of exactly `cols` cells. */
  ghost predicate Shaped(cells: seq<seq<BrickCell>>, cols: int)
  {
    |cells| == DaysPerWeek && forall r :: 0 <= r < DaysPerWeek ==> |cells[r]| == cols
  }

  /** maxCount is the largest cell count, or 0 when there is none above 0. */
  ghost predicate IsMaxCount(cells: seq<seq<BrickCell>>, cols: int, maxCount: int)
    requires Shaped(cells, cols)
  {
    && maxCount >= 0
    && (forall r, c :: 0 <= r < DaysPerWeek && 0 <= c < cols ==> cells[r][c].count <= maxCount)
    && (maxCount == 0 || exists r, c :: 0 <= r < DaysPerWeek && 0 <= c < cols && cells[r][c].count == maxCount)
  }

  /** The grid BuildBrickGrid produces for a calendar and a column limit. */
  ghost predicate IsBrickGrid(cal: Calendar, maxCols: int, g: BrickGrid)
  {
    var n := |cal.weeks|;
    && g.rows == DaysPerWeek
    && g.cols == (if n == 0 then 0 else Min(n, Max(maxCols, 1)))
    && Shaped(g.cells, g.cols)
    && (forall r, c :: 0 <= r < DaysPerWeek && 0 <= c < g.cols ==>
          g.cells[r][c].count == CellCount(cal.weeks, n, g.cols, r, c)
          && g.cells[r][c].hp == HPFromCount(g.cells[r][c].count, g.maxCount))
    && IsMaxCount(g.cells, g.cols, g.maxCount)
  }

  /** The description IsBrickGrid leaves no freedom: at most one grid meets it. */
  lemma BrickGridUnique(cal: Calendar, maxCols: int, g1: BrickGrid, g2: BrickGrid)
    requires IsBrickGrid(cal, maxCols, g1) && IsBrickGrid(cal, maxCols, g2)
    ensures g1 == g2
  {
    var cols := g1.cols;
    if g1.maxCount != 0 {
      var r, c :| 0 <= r < DaysPerWeek && 0 <= c < cols && g1.cells[r][c].count == g1.maxCount;
      assert g1.maxCount <= g2.maxCount;
    }
    if g2.maxCount != 0 {
      var r, c :| 0 <= r < DaysPerWeek && 0 <= c < cols && g2.cells[r][c].count == g2.maxCount;
      assert g2.maxCount <= g1.maxCount;
    }
    forall r | 0 <= r < DaysPerWeek ensures g1.cells[r] == g2.cells[r] {
      assert forall c :: 0 <= c < cols ==> g1.cells[r][c] == g2.cells[r][c];
    }
  }

  /** Some week of n is mapped to column c. */
  ghost predicate ColumnCovered(n: int, cols: int, c: int)
    requires n > 0
  {
    exists wi :: 0 <= wi < n && ColumnOf(wi, cols, n) == c
  }

  /** Size of a built grid: 7 rows, no more columns than weeks or than the (at least 1) limit. */
  lemma BrickGridSize(cal: Calendar, maxCols: int, g: BrickGrid)
    requires IsBrickGrid(cal, maxCols, g)
    ensures g.rows == DaysPerWeek && |g.cells| == DaysPerWeek
    ensures |cal.weeks| == 0 ==> g.cols == 0 && g.maxCount == 0
    ensures 0 <= g.cols <= |cal.weeks| && g.cols <= Max(maxCols, 1)
    ensures |cal.weeks| > 0 ==> g.cols > 0
    ensures |cal.weeks| > 0 ==> forall c :: 0 <= c < g.cols ==> ColumnCovered(|cal.weeks|, g.cols, c)
  {
    if |cal.weeks| > 0 {
      forall c | 0 <= c < g.cols ensures ColumnCovered(|cal.weeks|, g.cols, c) {
        var wi := ColumnSurjective(c, g.cols, |cal.weeks|);
      }
    }
  }

  /** Every built cell has a count of at least 0 and HP 0..4, with HP 0 exactly for count 0. */
  lemma BrickGridCells(cal: Calendar, maxCols: int, g: BrickGrid, r: int, c: int)
    requires IsBrickGrid(cal, maxCols, g)
    requires 0 <= r < DaysPerWeek && 0 <= c < g.cols
    ensures 0 <= g.cells[r][c].count <= g.maxCount
    ensures 0 <= g.cells[r][c].hp <= 4
    ensures g.cells[r][c].hp == 0 <==> g.cells[r][c].count == 0
    ensures 0 < g.cells[r][c].count == g.maxCount ==> g.cells[r][c].hp == 4
  {
    CellCountIsMax(cal.weeks, |cal.weeks|, g.cols, r, c);
  }

  /** A grid with a positive maximum count has a brick of full strength. */
  lemma BrickGridHasStrongest(cal: Calendar, maxCols: int, g: BrickGrid)
    requires IsBrickGrid(cal, maxCols, g)
    requires g.maxCount > 0
    ensures exists r, c :: 0 <= r < DaysPerWeek && 0 <= c < g.cols && g.cells[r][c].hp == 4
  {
    var r, c :| 0 <= r < DaysPerWeek && 0 <= c < g.cols && g.cells[r][c].count == g.maxCount;
    assert g.cells[r][c].hp == 4;
  }

  /** The cell counts after folding in every week: each week's days go to its column. */
  method FoldWeeks(weeks: seq<Week>, cols: int) returns (cells: seq<seq<BrickCell>>)
    requires 0 < cols <= |weeks|
    ensures Shaped(cells, cols)
    ensures forall r, c :: 0 <= r < DaysPerWeek && 0 <= c < cols ==>
      cells[r][c] == BrickCell(CellCount(weeks, |weeks|, cols, r, c), 0)
  {
    cells := seq(DaysPerWeek, _ => seq(cols, _ => BrickCell(0, 0)));
    // Evenly distribute week indices into [0..cols-1].
    for wi := 0 to |weeks|
      invariant Shaped(cells, cols)
      invariant forall r, c :: 0 <= r < DaysPerWeek && 0 <= c < cols ==>
        cells[r][c] == BrickCell(CellCount(weeks, wi, cols, r, c), 0)
    {
      var col := (wi * cols) / |weeks|;
      ColumnInRange(wi, cols, |weeks|);
      cells := FoldWeek(weeks, wi, cols, col, cells);
    }
  }

  /** Folds the days of week wi into column col. */
  method FoldWeek(weeks: seq<Week>, wi: int, cols: int, col: int, cells0: seq<seq<BrickCell>>)
    returns (cells: seq<seq<BrickCell>>)
    requires 0 <= wi < |weeks| && 0 <= col < cols && col == ColumnOf(wi, cols, |weeks|)
    requires Shaped(cells0, cols)
    requires forall r, c :: 0 <= r < DaysPerWeek && 0 <= c < cols ==>
      cells0[r][c] == BrickCell(CellCount(weeks, wi, cols, r, c), 0)
    ensures Shaped(cells, cols)
    ensures forall r, c :: 0 <= r < DaysPerWeek && 0 <= c < cols ==>
      cells[r][c] == BrickCell(CellCount(weeks, wi + 1, cols, r, c), 0)
  {
    cells := cells0;
    var days := weeks[wi].contributionDays;
    for j := 0 to |days|
      invariant Shaped(cells, cols)
      invariant forall r, c :: 0 <= r < DaysPerWeek && 0 <= c < cols ==>
        cells[r][c] == BrickCell(
          if c == col then FoldDays(CellCount(weeks, wi, cols, r, c), days[..j], r)
          else CellCount(weeks, wi, cols, r, c), 0)
    {
      var d := days[j];
      var r := d.weekday;
      if 0 <= r < DaysPerWeek && d.contributionCount > cells[r][col].count {
        cells := cells[r := cells[r][col := cells[r][col].(count := d.contributionCount)]];
      }
      assert days[..j + 1][..j] == days[..j];
    }
    assert days[..|days|] == days;
  }

  /** The largest count of the grid, 0 when none is positive. */
  method MaxCountOf(cells: seq<seq<BrickCell>>, cols: int) returns (maxCount: int)
    requires Shaped(cells, cols)
    ensures IsMaxCount(cells, cols, maxCount)
  {
    assert |cells[0]| == cols;
    maxCount := 0;
    ghost var wr, wc := 0, 0;
    for r := 0 to DaysPerWeek
      invariant maxCount >= 0
      invariant forall r', c :: 0 <= r' < r && 0 <= c < cols ==> cells[r'][c].count <= maxCount
      invariant maxCount == 0 || (0 <= wr < DaysPerWeek && 0 <= wc < cols && cells[wr][wc].count == maxCount)
    {
      for c := 0 to cols
        invariant maxCount >= 0
        invariant forall r', c' :: 0 <= r' < DaysPerWeek && 0 <= c' < cols && (r' < r || (r' == r && c' < c)) ==>
          cells[r'][c'].count <= maxCount
        invariant maxCount == 0 || (0 <= wr < DaysPerWeek && 0 <= wc < cols && cells[wr][wc].count == maxCount)
      {
        if cells[r][c].count > maxCount {
          maxCount := cells[r][c].count;
          wr, wc := r, c;
        }
      }
    }
  }

  /** Gives every cell the hit points of its count against maxCount, keeping the counts. */
  method AssignHP(cells0: seq<seq<BrickCell>>, cols: int, maxCount: int) returns (cells: seq<seq<BrickCell>>)
    requires Shaped(cells0, cols)
    ensures Shaped(cells, cols)
    ensures forall r, c :: 0 <= r < DaysPerWeek && 0 <= c < cols ==>
      cells[r][c] == BrickCell(cells0[r][c].count, HPFromCount(cells0[r][c].count, maxCount))
  {
    assert |cells0[0]| == cols;
    cells := cells0;
    for r := 0 to DaysPerWeek
      invariant Shaped(cells, cols)
      invariant forall r', c :: r <= r' < DaysPerWeek && 0 <= c < cols ==> cells[r'][c] == cells0[r'][c]
      invariant forall r', c :: 0 <= r' < r && 0 <= c < cols ==>
        cells[r'][c] == BrickCell(cells0[r'][c].count, HPFromCount(cells0[r'][c].count, maxCount))
    {
      var row := cells[r];
      for c := 0 to cols
        invariant |row| == cols
        invariant forall c' :: c <= c' < cols ==> row[c'] == cells0[r][c']
        invariant forall c' :: 0 <= c' < c ==>
          row[c'] == BrickCell(cells0[r][c'].count, HPFromCount(cells0[r][c'].count, maxCount))
      {
        row := row[c := row[c].(hp := HPFromCount(row[c].count, maxCount))];
      }
      cells := cells[r := row];
    }
  }

  /**
   * Compresses the calendar into at most maxCols columns (at least one), keeping the
   * per-weekday maximum of the weeks grouped into each column.
   */
  method BuildBrickGrid(cal: Calendar, maxCols: int) returns (g: BrickGrid)
    ensures IsBrickGrid(cal, maxCols, g)
  {
    var weeks := cal.weeks;
    var limit := maxCols;
    if limit <= 0 {
      limit := 1;
    }
    if |weeks| == 0 {
      return BrickGrid(DaysPerWeek, 0, 0, seq(DaysPerWeek, _ => []));
    }

    var cols := |weeks|;
    if cols > limit {
      cols := limit;
    }
    var counted := FoldWeeks(weeks, cols);
    var maxCount := MaxCountOf(counted, cols);
    var cells := AssignHP(counted, cols, maxCount);
    g := BrickGrid(DaysPerWeek, cols, maxCount, cells);
  }
}

=== FILE: wrappers.dfy ===
/** Option and Result values shared by the other modules. */
module Wrappers {

  /** A value that may be absent; `None` also stands for Go's nil. */
  datatype Option<+T> = None | Some(value: T)

  /** The outcome of an operation that can fail with an error of type E. */
  datatype Result<+R, +E> = Success(value: R) | Failure(error: E)
}
